=== FILE: README.md ===
# Overlord State layer, modelled in Dafny

Overlord is a BFT consensus engine: a state machine (SMR) walks each height through the
Propose, Prevote, Precommit, Brake and Commit steps, and the *State* layer around it handles
what arrives from the network and the application. The State layer:

- filters messages against a height/round window;
- collects signed votes;
- counts their vote weight against the two-thirds threshold;
- aggregates the votes into quorum certificates (QCs) with a voter bitmap;
- handles chokes (the Brake-step votes that move a stuck round on);
- builds the leader's proposal;
- logs its progress to a write-ahead log (WAL) and restarts from it.

This project models that layer and the wire and log formats it depends on, and proves:

- the properties each handler promises;
- round-trips for every codec;
- the quorum count and the bitmap layout.

Modules, one per file:

- `Wrappers`, `Primitives`, `Errors`: `Option`/`Result`, the fixed-width integer subset types,
  byte-string ordering, decimal rendering, and the error enum of `src/error.rs`.
- `Types`, `SmrTypes`, `WalTypes`: the records of `src/types.rs`, `src/smr/smr_types.rs` and
  `src/wal/wal_type.rs`, with their conversions.
- `Rlp`: the RLP item tree the codec writes. It covers canonical big-endian integers, booleans,
  byte strings and lists, with the decoder's error cases.
- `Codec`: the hand-written encoders and decoders of `src/codec.rs`.
- `Collectors`: the vote, proposal and choke collectors and the authority list, as maps and
  sequences.
- `Window`: `filter_message`. It also holds the as-written wrapping variant and its
  counterexamples (see Findings).
- `Quorum`: `counting_vote`, the voter sort and bitmap, and `generate_qc`.
- `Process`: the node state and its handlers.

Every handler is a pure transition. It takes a `NodeState` and returns an `Outcome`, which has
three parts:

- the new state;
- the effects emitted, in order: SMR triggers, broadcasts, WAL records, block checks, view-change
  reports, re-checks of cached messages, and the handing on of a cached proposal or a commit;
- the `ConsensusResult`.

The collaborators a handler calls are fields of an `Env` record of functions:

- proposer election;
- signing;
- signature aggregation;
- the application's `get_block`;
- the choke collector's `max_round_above_threshold`.

Integers are unbounded in Dafny. The `u64`/`u32` fields are subset types, and where the source's
fixed-width arithmetic could wrap, the model says so: under Findings or under Left out.

## Model

| member | source | states |
|---|---|---|
| Types.VoteTypeToByte | src/types.rs:31-38 | a prevote is byte 1 and a precommit is byte 2 |
| Types.VoteTypeFromByte | src/types.rs:58-68 | exactly bytes 1 and 2 convert, and back to the same byte; any other byte is the error `Other("")` |
| Types.VoteTypeByteRoundTrip | src/types.rs:31-68 | converting a vote type to its byte and back gives the vote type |
| Types.ToVote | src/types.rs:300-307 | the vote of a QC carries the QC's height, round, type and block hash |
| Types.IsPrevoteQc | src/types.rs:295-297 | true exactly for prevote QCs, false exactly for precommit QCs |
| Types.CompareSignedVotes | src/types.rs:217-227 | signed votes are ordered by voter address; equal exactly when the voters are equal; antisymmetric |
| Types.NewNode | src/types.rs:409-415 | a new node has the given address and weights 1 and 1 |
| Types.SetProposeWeight | src/types.rs:419-421 | sets the propose weight and keeps address and vote weight |
| Types.SetVoteWeight | src/types.rs:424-426 | sets the vote weight and keeps address and propose weight |
| Types.CompareNodes | src/types.rs:395-405 | nodes are ordered by address; equal exactly when the addresses are equal |
| Types.IsConsensusNode | src/types.rs:375-379 | true exactly when some authority in the status has the address |
| Types.ChokeLen | src/types.rs:459-461 | the length of a choke QC is its number of voters |
| Types.AggregatedChokeToHash | src/types.rs:463-468 | the signed digest of a choke QC is its height and round |
| Types.ChokeToHash | src/types.rs:494-499 | the signed digest of a choke is its height and round |
| Types.IsRichStatus | src/types.rs:99-101 | true exactly for the rich-status message |
| Types.GetHeight | src/types.rs:103-112 | each message's height is the height of what it carries; `Stop` panics |
| SmrTypes.CompareSteps | src/smr/smr_types.rs:8-49 | the derived step order: equal exactly on equal steps, less exactly when the first is declared earlier, greater exactly when it is declared later |
| SmrTypes.StepOrderChain | src/smr/smr_types.rs:8-49 | for all steps, swapping the operands turns less into greater, and less is transitive |
| SmrTypes.DefaultStep | src/smr/smr_types.rs:7-48 | the default step is the greatest one (Commit) |
| SmrTypes.StepToByte | src/smr/smr_types.rs:61-71 | steps are bytes 0 to 4 in declaration order |
| SmrTypes.StepFromByte | src/smr/smr_types.rs:73-84 | bytes 0 to 4 convert and back to the same byte; any other byte panics with "Invalid step!" |
| SmrTypes.StepByteRoundTrip | src/smr/smr_types.rs:61-84 | step to byte and back is the identity |
| SmrTypes.VoteTypeToStep | src/types.rs:49-56 | a prevote maps to the Prevote step and a precommit to Precommit, with the same byte |
| SmrTypes.FromWhereRound | src/smr/smr_types.rs:98-104 | the round carried by each kind of origin |
| SmrTypes.ToReason | src/smr/smr_types.rs:106-118 | the view-change reason names the same kind of QC and carries the old round and the QC's round |
| SmrTypes.StatusToSmr | src/types.rs:364-372 | the SMR status keeps height, interval and timer configuration |
| SmrTypes.VoteTypeToTrigger | src/types.rs:40-47 | a prevote gives the PrevoteQC trigger and a precommit gives the PrecommitQC trigger |
| SmrTypes.TriggerToByte | src/smr/smr_types.rs:246-255 | Proposal is byte 0, PrevoteQC byte 1 and PrecommitQC byte 2; every other trigger is unreachable |
| SmrTypes.TriggerFromByte | src/smr/smr_types.rs:257-268 | byte 0 is Proposal, 1 PrevoteQC and 2 PrecommitQC, each the inverse of TriggerToByte; byte 3 is unreachable; larger bytes panic with "Invalid trigger type!" |
| SmrTypes.TriggerByteRoundTrip | src/smr/smr_types.rs:246-268 | the three convertible triggers round-trip through their byte |
| WalTypes.ToLock | src/wal/wal_type.rs:48-53 | the SMR lock of a WAL lock is its lock round and the hash of its prevote QC |
| WalTypes.IntoSmrBase | src/wal/wal_type.rs:28-35 | the SMR base keeps height, round and step, and has a lock exactly when the record has one |
| WalTypes.DisplayWalInfo | src/wal/wal_type.rs:8-10 | the display string starts with "wal info height ", followed by the decimal height, round and step |
| WalTypes.DisplayWalInfoExample | src/wal/wal_type.rs:101-121 | a record at height 0, round 0, step Propose displays as "wal info height 0, round 0, step Propose" |
| Codec.VoteTypeRoundTrip | src/codec.rs:14-45 | decoding an encoded vote type gives it back and consumes exactly its item |
| Codec.VoteTypeDecodePanics | src/codec.rs:39-45 | a vote-type byte other than 1 or 2 makes the decoder panic on its unwrap |
| Codec.SignedProposalRoundTrip | src/codec.rs:22-37 | a signed proposal round-trips, given a block codec that round-trips |
| Codec.ProposalRoundTrip | src/codec.rs:47-109 | a proposal, with or without a lock, round-trips given a block codec that round-trips |
| Codec.ProposalBadFlag | src/codec.rs:76-109 | a lock flag other than 0 or 1 is refused with the invalid-bool error |
| Codec.CommitRoundTrip | src/codec.rs:111-132 | a commit (height, block, proof) round-trips given a block codec that round-trips |
| Codec.CommitContentRefused | src/codec.rs:119-132 | block bytes the block codec refuses give "Decode content error." |
| Codec.UpdateFromRoundTrip | src/codec.rs:134-173 | every update origin round-trips through its tag and QC |
| Codec.PrevoteFromRoundTrip | src/codec.rs:134-173 | a prevote-QC origin round-trips through tag 0 |
| Codec.PrecommitFromRoundTrip | src/codec.rs:134-173 | a precommit-QC origin round-trips through tag 1 |
| Codec.ChokeFromRoundTrip | src/codec.rs:134-173 | a choke-QC origin round-trips through tag 2 |
| Codec.UpdateFromInvalidTag | src/codec.rs:153-173 | a tag above 2 is refused with "Invalid update from." |
| Codec.WalLockRoundTrip | src/codec.rs:175-196 | a WAL lock round-trips given a block codec that round-trips |
| Codec.StepRoundTrip | src/codec.rs:198-212 | a step round-trips through its byte |
| Codec.StepDecodePanics | src/codec.rs:206-212 | a step byte above 4 makes the decoder panic with "Invalid step!" |
| Codec.WalInfoRoundTrip | src/codec.rs:214-257 | a WAL record, with or without a lock, round-trips given a block codec that round-trips |
| Codec.AggregatedVoteRoundTrip | src/codec.rs:507-516 | an aggregated vote round-trips |
| Codec.AggregatedChokeRoundTrip | src/codec.rs:533-537 | an aggregated choke round-trips |
| Codec.AddressesRoundTrip | src/codec.rs:533-537 | the voter list of a choke QC round-trips element by element |
| Window.FilterMessage | src/state/process.rs:1838-1861 | drops outdated messages, heights more than 5 ahead, rounds more than 10 ahead at the current height, and rounds above 10 at later heights; keeps the current round; drops exactly what is outside the window |
| Window.FilterMessageWrapping | src/state/process.rs:1838-1861 | the filter with the source's wrapping `u64` additions agrees with the intended filter whenever the additions do not overflow |
| Window.WrappingDropsCurrentMessage | src/state/process.rs:1846 | at height `u64::MAX` the wrapped sum drops a message of the node's own height and round |
| Window.WrappingDropsNextRound | src/state/process.rs:1853 | at round `u64::MAX - 1` the wrapped sum drops a message of the next round |
| Quorum.CountingVote | src/state/process.rs:1147-1173 | a returned hash has voters whose weight is strictly above two thirds of the total; None means no hash has such voters and every voter is an authority; an unknown voter is an `InvalidAddress` error |
| Quorum.InsertByVoter | src/state/process.rs:1256-1262 | inserting into a voter-sorted list keeps it sorted and adds exactly that vote |
| Quorum.VoterFlags | src/state/process.rs:1276-1282 | bit i is set exactly when the i-th authority voted |
| Quorum.PackBitsRoundTrip | src/state/process.rs:1276-1287 | the bitmap bytes give back every flag, most significant bit first, and the padding bits are zero |
| Quorum.GenerateQc | src/state/process.rs:1251-1295 | the QC has the requested type, height, round, hash and leader; its bitmap packs the voters' flags; it aggregates a voter-sorted list of all the votes; the collector's error is passed on; otherwise it fails only when aggregating such a list fails, with that crypto error |
| Quorum.SortVotes | src/state/process.rs:1256-1262 | the sorted list is voter-ordered, holds every collected vote and nothing else, and its voters are exactly the voters of the collection |
| Process.TryGetFullTxs | src/state/process.rs:1764-1772 | an empty hash counts as checked; otherwise the recorded verdict, or false when there is none |
| Process.MockInitQc | src/state/process.rs:1889-1903 | the initial QC is an empty precommit at height 0, round 0 |
| Process.FilterSignedProposal | src/state/process.rs:1811-1836 | the proposal goes on to be handled exactly when it is for the current height and round; admitted proposals for other slots are cached; filtered ones change nothing |
| Process.FilterSignedProposalCaches | src/state/process.rs:1811-1836 | any in-window proposal not for the current round is stored at its slot |
| Process.HandleAggregatedVote | src/state/process.rs:981-1069 | outdated QCs are ignored; later-height QCs are stored only when fewer than 5 heights ahead (one height fewer than the message filter admits) and below round 10, without a trigger; current-height prevote QCs or empty precommit QCs of an earlier round are ignored; others are stored and trigger the SMR with the QC's round and height exactly when the block is checked or the hash is empty |
| Process.FutureQcInsideWindow | src/state/process.rs:1015-1016 | a stored later-height QC is one the message filter admits |
| Process.HandleAggregatedChoke | src/state/process.rs:1225-1249 | refused with a brake error exactly when 3 times the voters are at most 2 times the authorities; otherwise stored, with a ContinueRound trigger for the next round |
| Process.CheckChokeAboveThreshold | src/state/process.rs:1551-1596 | no reported round, or one before the current round, changes nothing; for a reported round at or after it, the chokes of that round are aggregated: on success the choke QC of the current height, that round, the aggregated signature and those chokes' voters is stored, no other round's QC changes, and ContinueRound is triggered for the next round; on failure the crypto error is returned and nothing changes |
| Process.HandleSignedChoke | src/state/process.rs:1183-1223 | chokes of another height or an earlier round change nothing; a later round is handled as the QC it carries; a current-round choke is collected and then the round's chokes are checked against the threshold |
| Process.SetUpdateFrom | src/state/process.rs:1774-1805 | records the prevote QC, precommit QC or choke QC of the given round at the current height; a precommit round of `u64::MAX` uses the initial QC; fails exactly when the QC is missing, with the collector's error for votes and a brake error for chokes; nothing else changes |
| Process.ViewChangeReasonOf | src/state/process.rs:1501-1549 | a QC of another round names the higher QC; a leader reports a precommit below threshold exactly when a prevote QC with a non-empty hash exists for the round, else a prevote below threshold; a replica reports, in order, a missing proposal, an unchecked block, a missing prevote QC, a missing precommit QC, or otherwise `Others` |
| Process.SaveWalWithLockRound | src/state/process.rs:1641-1670 | the record has the current height, round, origin and step; it has a lock exactly when a lock round is given, holding that round's prevote QC and its block; fails exactly when that QC or block is missing |
| Process.GotoNewHeight | src/state/process.rs:390-446 | a status not above the current height changes nothing; otherwise height and round 0 are set and consensus power is recomputed; with power, older votes and proposals are flushed, blocks and chokes are cleared, the Propose record is logged and the status is handed on |
| Process.ResetForHeight | src/state/process.rs:418-431 | the new authorities (and interval, when given) are taken over; votes, QCs and proposals below the new height are gone while those at or above it stay; blocks and chokes are cleared |
| Process.Recheck | src/state/process.rs:433-442 | a proposal re-check is started exactly when proposals of the new height are cached, and a vote re-check exactly when votes or QCs of the new height are collected |
| Process.GotoNewHeightMonotone | src/state/process.rs:390-401 | the height never decreases, and a changed height restarts at round 0 |
| Process.IsProposer | src/state/process.rs:1356-1379 | records the elected leader and reports whether it is this node |
| Process.HandleNewRound | src/state/process.rs:452-567 | reports a view change for a non-zero round; moves to the new round; refuses a lock round without a lock proposal and the reverse; logs a Propose record of the new round before proposing |
| Process.EnterRound | src/state/process.rs:476-487 | the certificate of the origin is recorded, then the Propose record is logged and the proposal step follows it; an error of either is returned with no effect; the log record precedes every further effect |
| Process.ProposeStep | src/state/process.rs:480-487 | a proposer-election error is returned; the elected leader is recorded and the node is leader exactly when it is that address; a replica succeeds, taking up the proposal cached for its slot if any; the leader goes on to propose |
| Process.PickBlock | src/state/process.rs:503-528 | without a lock, the application's block and hash for the current height, or `Other` when that fails; with a lock, the held block of the locked hash and the lock round's prevote QC as proof of lock, or `ProposalErr` when the block or the QC is missing |
| Process.LeaderPropose | src/state/process.rs:489-566 | a failure to pick the block is returned with no effect; the picked block is kept under its hash; the proposal of the node's height, round and address over the picked block, hash and proof of lock is signed (a signing failure is a crypto error), broadcast, followed by the Proposal trigger with that hash and the block check; the unlocked content comes from the application, the locked content and QC from the node's own store |
| Process.HandleBrake | src/state/process.rs:707-747 | a round other than the current one is a correctness error; a signing failure is a crypto error and changes nothing; otherwise the node's own choke of its height, round and origin is collected, the Brake record is logged (its error is returned), the choke is broadcast and the round's chokes are checked against the threshold |
| Process.StartWithWal | src/state/process.rs:1672-1745 | no power means no change; a missing log at the initial height changes nothing; a missing log at any other height restarts it at Propose; a record is restored as RestoreWal states |
| Process.RestoreWal | src/state/process.rs:1702-1745 | height and round come from the record and the node is leader exactly when it is the elected proposer; a proposer error is passed on; at Commit, a record without a lock is a WAL error and one with a lock commits the locked hash; any other record is resumed from the recovered state (a Brake record brakes again, collecting the node's own choke and logging a Brake record locked exactly when the record is, and the last effect resumes the state machine); a lock's QC can afterwards be found by its id and its block is kept |
| Process.RestoreState | src/state/process.rs:1708-1720 | the recovered state has the record's height, round and origin and the leader elected for them, leader exactly when that is the node; the lock's QC is findable by its id with its block kept; a proposer error is passed on |
| Process.RestoreLock | src/state/process.rs:1714-1720 | after restoring, the locked QC is found by its height, round and type; without a lock nothing changes |
| Process.ResumeWal | src/state/process.rs:1729-1745 | only chokes can change; a record not at Brake only resumes the state machine; a Brake record first runs the brake of the current round with the record's lock round, passing on its failure, and then resumes; the brake collects the node's own choke and logs a Brake record locked exactly when the record is |
| Process.HandleSignedVote | src/state/process.rs:845-953 | filtered votes change nothing; a non-authority voter is an `InvalidAddress` error; a vote whose QC exists is not stored; other votes are stored; later-height votes are not counted; counting fails only when the vote map is missing, when one of its voters is not an authority, or with a crypto error while some hash is above the threshold; when counting succeeds, a QC is broadcast exactly when some hash of the current round's votes of that type is above the threshold; the QC is for the current height and round, is stored, and triggers the state machine with its hash exactly when the block is fully checked |
| Process.CountVotes | src/state/process.rs:901-952 | counting the current height and round's votes of one type fails only when the vote map is missing, when one of its voters is not an authority, or with a crypto error while some hash is above the threshold, and then has no effect; a successful count broadcasts a QC exactly when some hash is above the threshold, and otherwise leaves the state as it was; the QC is for the current height and round, is stored, and is above the threshold in the stored votes |
| Process.CertifyHash | src/state/process.rs:910-952 | the QC aggregated for the winning hash carries the current height and round, the vote type, that hash and this node as leader; it is stored and broadcast, and the state machine is triggered with the hash exactly when its block is fully checked; a crypto failure of the aggregation leaves state and effects untouched |

## Left out

- The async event loop (`run`, `handle_msg`, `handle_event`, `handle_resp`) and the verification
  responses; channels, contexts, logging and timers.
- `handle_signed_proposal`, `handle_vote_event`, `vote_process`, `handle_commit`,
  `re_check_proposals`, `re_check_votes` and `re_check_qcs` are not modelled. The handlers that
  call them emit the matching effect (`HandleProposal`, `HandleCommit`, `RecheckProposals`,
  `RecheckVotes`) in their place.
- Signatures, hashing and `bcs` serialization: signing and aggregation are functions in `Env`,
  and their errors are strings.
- The state machine's `trigger` and the WAL's `save` are taken to succeed: their effects are
  returned in order and are never refused. `load_wal` is a parameter of `StartWithWal`, so its
  I/O errors are not modelled.
- The collectors and the authority manager (`state/collection.rs`, `utils/auth_manage.rs`) are
  not part of this model. They are modelled as maps and sequences:
  - `insert_vote` dedupes by voter;
  - a proposal at an occupied slot overwrites the old one;
  - a choke already present is not stored again;
  - the authority list keeps the status's order, and `update`'s sort is not modelled;
  - the errors of `get_vote_map`, `get_votes` and `get_qc_by_id` are the placeholders `StorageErr`;
  - an unknown voter's weight lookup gives `InvalidAddress`.
- `CheckChokeAboveThreshold` reads an empty choke list for a round without chokes, where the
  source's `unwrap` at line 1561 would panic. `max_round_above_threshold` only reports rounds
  that have chokes.
- The RLP library is not part of this repository. The wire format is an item tree, not a byte
  stream. `AggregatedVote`, `AggregatedSignature`, `PoLC`, `Proof` and `AggregatedChoke` are
  encoded as lists of their fields in declaration order; their derived encoders are not shown.
- Block contents are encoded by an abstract `ContentCodec`, standing for the `Codec` trait. The
  round-trips assume that this codec round-trips.
- Error messages whose source text embeds a `{:?}` rendering keep only their fixed words.
- Quorum.CountingVote: the per-hash weight accumulator of line 1164 is a `u32`, and the model
  sums unboundedly. In the source, a weight total of 2^32 or more panics in debug builds or
  wraps in release builds.
- Process.HandleAggregatedVote: the bound `self.height + FUTURE_HEIGHT_GAP` of line 1016 is
  computed unboundedly. The source's `u64` addition overflows only for heights within 5 of
  `u64::MAX`.
- Process.HandleAggregatedChoke: the next round `round + 1` of line 1244 is computed unboundedly
  (the trigger's round is a `nat`). The same holds for line 1589 in
  Process.CheckChokeAboveThreshold.
- Process.HandleNewRound: a replica's cached proposal for the new round is handed on as a
  `HandleProposal` effect, and the handler then reports success. The source returns the result
  of `handle_signed_proposal` instead.
- `State::new`, `next_proposer`, `verify_proposer`, `sign_vote`, `check_block`'s callback and
  `check_current_block` are not modelled. They are wiring or calls into the application.

## Findings

| source | as written | input that shows it | evidently intended | confidence | as-written member | corrected member |
|---|---|---|---|---|---|---|
| src/state/process.rs:1846 | `self.height + FUTURE_HEIGHT_GAP < height` on `u64`, which wraps in release builds | node at height `u64::MAX`, round 0, and a message at height `u64::MAX`, round 0: the sum wraps to 4, so the node's own message is dropped | drop only heights more than 5 above the node's own | not executed | Window.FilterMessageWrapping, Window.WrappingDropsCurrentMessage | Window.FilterMessage |
| src/state/process.rs:1853 | `self.round + FUTURE_ROUND_GAP < round` on `u64`, which wraps in release builds | node at height 0, round `u64::MAX - 1`, and a message at height 0, round `u64::MAX`: the sum wraps to 8, so the next round's message is dropped | drop only rounds more than 10 above the node's own | not executed | Window.FilterMessageWrapping, Window.WrappingDropsNextRound | Window.FilterMessage |

=== FILE: codec.dfy ===
/**
 * The RLP encodings of the consensus messages and of the write-ahead-log record
 * (`src/codec.rs`). Each struct is a list of its fields. Block content goes through the
 * application's own byte codec (bcs), which is opaque here: a `ContentCodec` only promises
 * that it reads back what it wrote.
 */
module Codec {
  import opened Wrappers
  import opened Primitives
  import opened Errors
  import opened Types
  import opened SmrTypes
  import opened WalTypes
  import opened Rlp

  /** The application's content serialisation. */
  datatype ContentCodec<!T> = ContentCodec(toBytes: T -> Bytes, fromBytes: Bytes -> Option<T>)

  ghost predicate ContentRoundTrips<T(!new)>(cc: ContentCodec<T>) {
    forall t: T :: cc.fromBytes(cc.toBytes(t)) == Some(t)
  }

  const CONTENT_ERROR: string := "Decode content error."
  const INVALID_UPDATE_FROM: string := "Invalid update from."
  const INVALID_STEP: string := "Invalid step!"
  /** The panic message of `VoteType::try_from(value).unwrap()` on a byte other than 1 and 2. */
  const VOTE_TYPE_UNWRAP: string := "called `Result::unwrap()` on an `Err` value: Other(\"\")"

  // ---------------------------------------------------------------------------------------
  // Content

  function EncodeContent<T>(cc: ContentCodec<T>, t: T): Item {
    EncodeBytes(cc.toBytes(t))
  }

  /** A byte string run through the content codec; a refusal becomes a custom error. */
  function DecodeContent<T>(cc: ContentCodec<T>, items: seq<Item>): (r: Decoded<T>)
    ensures r.Ok? ==> |items| > 0 && r.value.1 == items[1..]
  {
    var p :- DecodeBytes(items);
    match cc.fromBytes(p.0)
    case None => Err(Custom(CONTENT_ERROR))
    case Some(t) => Ok((t, p.1))
  }

  // ---------------------------------------------------------------------------------------
  // VoteType and Step: a one-element list holding the byte

  function EncodeVoteType(v: VoteType): Item {
    RlpList([EncodeUint(VoteTypeToByte(v))])
  }

  function DecodeVoteType(items: seq<Item>): (r: Decoded<VoteType>)
    ensures r.Ok? ==> |items| > 0 && r.value.1 == items[1..]
  {
    var l :- DecodeList(items);
    var b :- DecodeU8(l.0);
    match VoteTypeFromByte(b.0)
    case Ok(v) => Ok((v, l.1))
    case Err(_) => Err(Panicked(VOTE_TYPE_UNWRAP))
  }

  function EncodeStep(s: Step): Item {
    RlpList([EncodeUint(StepToByte(s))])
  }

  function DecodeStep(items: seq<Item>): (r: Decoded<Step>)
    ensures r.Ok? ==> |items| > 0 && r.value.1 == items[1..]
  {
    var l :- DecodeList(items);
    var b :- DecodeU8(l.0);
    match StepFromByte(b.0)
    case Ok(s) => Ok((s, l.1))
    case Err(p) => Err(Panicked(p.message))
  }

  // ---------------------------------------------------------------------------------------
  // Records whose encoding is the list of their fields in declaration order

  function EncodeAggregatedSignature(s: AggregatedSignature): Item {
    RlpList([EncodeBytes(s.signature), EncodeBytes(s.addressBitmap)])
  }

  function DecodeAggregatedSignature(items: seq<Item>): (r: Decoded<AggregatedSignature>)
    ensures r.Ok? ==> |items| > 0 && r.value.1 == items[1..]
  {
    var l :- DecodeList(items);
    var signature :- DecodeBytes(l.0);
    var bitmap :- DecodeBytes(signature.1);
    Ok((AggregatedSignature(signature.0, bitmap.0), l.1))
  }

  function EncodeAggregatedVote(qc: AggregatedVote): Item {
    RlpList([EncodeAggregatedSignature(qc.signature), EncodeVoteType(qc.voteType),
             EncodeUint(qc.height), EncodeUint(qc.round), EncodeBytes(qc.blockHash),
             EncodeBytes(qc.leader)])
  }

  function DecodeAggregatedVote(items: seq<Item>): (r: Decoded<AggregatedVote>)
    ensures r.Ok? ==> |items| > 0 && r.value.1 == items[1..]
  {
    var l :- DecodeList(items);
    var signature :- DecodeAggregatedSignature(l.0);
    var voteType :- DecodeVoteType(signature.1);
    var height :- DecodeU64(voteType.1);
    var round :- DecodeU64(height.1);
    var hash :- DecodeBytes(round.1);
    var leader :- DecodeBytes(hash.1);
    Ok((AggregatedVote(signature.0, voteType.0, height.0, round.0, hash.0, leader.0), l.1))
  }

  function EncodePoLC(p: PoLC): Item {
    RlpList([EncodeUint(p.lockRound), EncodeAggregatedVote(p.lockVotes)])
  }

  function DecodePoLC(items: seq<Item>): (r: Decoded<PoLC>)
    ensures r.Ok? ==> |items| > 0 && r.value.1 == items[1..]
  {
    var l :- DecodeList(items);
    var lockRound :- DecodeU64(l.0);
    var lockVotes :- DecodeAggregatedVote(lockRound.1);
    Ok((PoLC(lockRound.0, lockVotes.0), l.1))
  }

  function EncodeProof(p: Proof): Item {
    RlpList([EncodeUint(p.height), EncodeUint(p.round), EncodeBytes(p.blockHash),
             EncodeAggregatedSignature(p.signature)])
  }

  function DecodeProof(items: seq<Item>): (r: Decoded<Proof>)
    ensures r.Ok? ==> |items| > 0 && r.value.1 == items[1..]
  {
    var l :- DecodeList(items);
    var height :- DecodeU64(l.0);
    var round :- DecodeU64(height.1);
    var hash :- DecodeBytes(round.1);
    var signature :- DecodeAggregatedSignature(hash.1);
    Ok((Proof(height.0, round.0, hash.0, signature.0), l.1))
  }

  function EncodeAddresses(addresses: seq<Address>): (items: seq<Item>)
    ensures |items| == |addresses|
    ensures forall i :: 0 <= i < |items| ==> items[i] == EncodeBytes(addresses[i])
  {
    if |addresses| == 0 then [] else [EncodeBytes(addresses[0])] + EncodeAddresses(addresses[1..])
  }

  /** A `Vec<Address>`: every item of the payload is one address. */
  function DecodeAddresses(payload: seq<Item>): (r: Result<seq<Address>, DecodeError>)
    ensures r.Ok? ==> |r.value| == |payload|
  {
    if |payload| == 0 then Ok([])
    else
      var first :- DecodeBytes(payload);
      var others :- DecodeAddresses(first.1);
      Ok([first.0] + others)
  }

  function EncodeAggregatedChoke(qc: AggregatedChoke): Item {
    RlpList([EncodeUint(qc.height), EncodeUint(qc.round), EncodeBytes(qc.signature),
             RlpList(EncodeAddresses(qc.voters))])
  }

  function DecodeAggregatedChoke(items: seq<Item>): (r: Decoded<AggregatedChoke>)
    ensures r.Ok? ==> |items| > 0 && r.value.1 == items[1..]
  {
    var l :- DecodeList(items);
    var height :- DecodeU64(l.0);
    var round :- DecodeU64(height.1);
    var signature :- DecodeBytes(round.1);
    var voters :- DecodeList(signature.1);
    var addresses :- DecodeAddresses(voters.0);
    Ok((AggregatedChoke(height.0, round.0, signature.0, addresses), l.1))
  }

  // ---------------------------------------------------------------------------------------
  // The impls of codec.rs

  /** `Encodable for Proposal`: a leading flag says whether the PoLC field is present. */
  function EncodeProposal<T>(cc: ContentCodec<T>, p: Proposal<T>): Item {
    match p.lock
    case Some(polc) =>
      RlpList([EncodeBool(true), EncodeUint(p.height), EncodeUint(p.round),
               EncodeContent(cc, p.content), EncodeBytes(p.blockHash), EncodePoLC(polc),
               EncodeBytes(p.proposer)])
    case None =>
      RlpList([EncodeBool(false), EncodeUint(p.height), EncodeUint(p.round),
               EncodeContent(cc, p.content), EncodeBytes(p.blockHash), EncodeBytes(p.proposer)])
  }

  function DecodeProposal<T>(cc: ContentCodec<T>, items: seq<Item>): (r: Decoded<Proposal<T>>)
    ensures r.Ok? ==> |items| > 0 && r.value.1 == items[1..]
  {
    var l :- DecodeList(items);
    var hasLock :- DecodeBool(l.0);
    var height :- DecodeU64(hasLock.1);
    var round :- DecodeU64(height.1);
    var content :- DecodeContent(cc, round.1);
    var hash :- DecodeBytes(content.1);
    if hasLock.0 then
      var polc :- DecodePoLC(hash.1);
      var proposer :- DecodeBytes(polc.1);
      Ok((Proposal(height.0, round.0, content.0, hash.0, Some(polc.0), proposer.0), l.1))
    else
      var proposer :- DecodeBytes(hash.1);
      Ok((Proposal(height.0, round.0, content.0, hash.0, None, proposer.0), l.1))
  }

  function EncodeSignedProposal<T>(cc: ContentCodec<T>, sp: SignedProposal<T>): Item {
    RlpList([EncodeBytes(sp.signature), EncodeProposal(cc, sp.proposal)])
  }

  function DecodeSignedProposal<T>(cc: ContentCodec<T>, items: seq<Item>): (r: Decoded<SignedProposal<T>>)
    ensures r.Ok? ==> |items| > 0 && r.value.1 == items[1..]
  {
    var l :- DecodeList(items);
    var signature :- DecodeBytes(l.0);
    var proposal :- DecodeProposal(cc, signature.1);
    Ok((SignedProposal(signature.0, proposal.0), l.1))
  }

  function EncodeCommit<T>(cc: ContentCodec<T>, c: Commit<T>): Item {
    RlpList([EncodeUint(c.height), EncodeContent(cc, c.content), EncodeProof(c.proof)])
  }

  function DecodeCommit<T>(cc: ContentCodec<T>, items: seq<Item>): (r: Decoded<Commit<T>>)
    ensures r.Ok? ==> |items| > 0 && r.value.1 == items[1..]
  {
    var l :- DecodeList(items);
    var height :- DecodeU64(l.0);
    var content :- DecodeContent(cc, height.1);
    var proof :- DecodeProof(content.1);
    Ok((Types.Commit(height.0, content.0, proof.0), l.1))
  }

  /** The tag byte of each `UpdateFrom` variant. */
  function UpdateFromTag(u: UpdateFrom): byte {
    match u
    case PrevoteQC(_) => 0
    case PrecommitQC(_) => 1
    case ChokeQC(_) => 2
  }

  function EncodeUpdateFrom(u: UpdateFrom): Item {
    match u
    case PrevoteQC(qc) => RlpList([EncodeUint(0), EncodeAggregatedVote(qc)])
    case PrecommitQC(qc) => RlpList([EncodeUint(1), EncodeAggregatedVote(qc)])
    case ChokeQC(qc) => RlpList([EncodeUint(2), EncodeAggregatedChoke(qc)])
  }

  function DecodeUpdateFrom(items: seq<Item>): (r: Decoded<UpdateFrom>)
    ensures r.Ok? ==> |items| > 0 && r.value.1 == items[1..]
  {
    var l :- DecodeList(items);
    var tag :- DecodeU8(l.0);
    if tag.0 == 0 then
      var qc :- DecodeAggregatedVote(tag.1);
      Ok((PrevoteQC(qc.0), l.1))
    else if tag.0 == 1 then
      var qc :- DecodeAggregatedVote(tag.1);
      Ok((PrecommitQC(qc.0), l.1))
    else if tag.0 == 2 then
      var qc :- DecodeAggregatedChoke(tag.1);
      Ok((ChokeQC(qc.0), l.1))
    else
      Err(Custom(INVALID_UPDATE_FROM))
  }

  function EncodeWalLock<T>(cc: ContentCodec<T>, w: WalLock<T>): Item {
    RlpList([EncodeUint(w.lockRound), EncodeAggregatedVote(w.lockVotes), EncodeContent(cc, w.content)])
  }

  function DecodeWalLock<T>(cc: ContentCodec<T>, items: seq<Item>): (r: Decoded<WalLock<T>>)
    ensures r.Ok? ==> |items| > 0 && r.value.1 == items[1..]
  {
    var l :- DecodeList(items);
    var lockRound :- DecodeU64(l.0);
    var lockVotes :- DecodeAggregatedVote(lockRound.1);
    var content :- DecodeContent(cc, lockVotes.1);
    Ok((WalLock(lockRound.0, lockVotes.0, content.0), l.1))
  }

  /** `Encodable for WalInfo`: a leading flag says whether the lock field is present. */
  function EncodeWalInfo<T>(cc: ContentCodec<T>, w: WalInfo<T>): Item {
    match w.lock
    case Some(lock) =>
      RlpList([EncodeBool(true), EncodeUint(w.height), EncodeUint(w.round), EncodeStep(w.step),
               EncodeWalLock(cc, lock), EncodeUpdateFrom(w.from)])
    case None =>
      RlpList([EncodeBool(false), EncodeUint(w.height), EncodeUint(w.round), EncodeStep(w.step),
               EncodeUpdateFrom(w.from)])
  }

  function DecodeWalInfo<T>(cc: ContentCodec<T>, items: seq<Item>): (r: Decoded<WalInfo<T>>)
    ensures r.Ok? ==> |items| > 0 && r.value.1 == items[1..]
  {
    var l :- DecodeList(items);
    var hasLock :- DecodeBool(l.0);
    var height :- DecodeU64(hasLock.1);
    var round :- DecodeU64(height.1);
    var step :- DecodeStep(round.1);
    if hasLock.0 then
      var lock :- DecodeWalLock(cc, step.1);
      var from :- DecodeUpdateFrom(lock.1);
      Ok((WalInfo(height.0, round.0, step.0, Some(lock.0), from.0), l.1))
    else
      var from :- DecodeUpdateFrom(step.1);
      Ok((WalInfo(height.0, round.0, step.0, None, from.0), l.1))
  }

  // ---------------------------------------------------------------------------------------
  // Decoding inverts encoding

  lemma ContentRoundTrip<T(!new)>(cc: ContentCodec<T>, t: T, items: seq<Item>)
    requires ContentRoundTrips(cc)
    requires |items| > 0 && items[0] == EncodeContent(cc, t)
    ensures DecodeContent(cc, items) == Ok((t, items[1..]))
  {
    BytesRoundTrip(cc.toBytes(t), items);
  }

  lemma VoteTypeRoundTrip(v: VoteType, items: seq<Item>)
    requires |items| > 0 && items[0] == EncodeVoteType(v)
    ensures DecodeVoteType(items) == Ok((v, items[1..]))
  {
    U8RoundTrip(VoteTypeToByte(v), items[0].items);
    VoteTypeByteRoundTrip(v);
  }

  lemma StepRoundTrip(s: Step, items: seq<Item>)
    requires |items| > 0 && items[0] == EncodeStep(s)
    ensures DecodeStep(items) == Ok((s, items[1..]))
  {
    U8RoundTrip(StepToByte(s), items[0].items);
    StepByteRoundTrip(s);
  }

  lemma AggregatedSignatureRoundTrip(s: AggregatedSignature, items: seq<Item>)
    requires |items| > 0 && items[0] == EncodeAggregatedSignature(s)
    ensures DecodeAggregatedSignature(items) == Ok((s, items[1..]))
  {
  }

  lemma AggregatedVoteRoundTrip(qc: AggregatedVote, items: seq<Item>)
    requires |items| > 0 && items[0] == EncodeAggregatedVote(qc)
    ensures DecodeAggregatedVote(items) == Ok((qc, items[1..]))
  {
    var s0 := items[0].items;
    AggregatedSignatureRoundTrip(qc.signature, s0);
    var s1 := s0[1..];
    VoteTypeRoundTrip(qc.voteType, s1);
    var s2 := s1[1..];
    U64RoundTrip(qc.height, s2);
    var s3 := s2[1..];
    U64RoundTrip(qc.round, s3);
  }

  lemma PoLCRoundTrip(p: PoLC, items: seq<Item>)
    requires |items| > 0 && items[0] == EncodePoLC(p)
    ensures DecodePoLC(items) == Ok((p, items[1..]))
  {
    var s0 := items[0].items;
    U64RoundTrip(p.lockRound, s0);
    AggregatedVoteRoundTrip(p.lockVotes, s0[1..]);
  }

  lemma ProofRoundTrip(p: Proof, items: seq<Item>)
    requires |items| > 0 && items[0] == EncodeProof(p)
    ensures DecodeProof(items) == Ok((p, items[1..]))
  {
    var s0 := items[0].items;
    U64RoundTrip(p.height, s0);
    U64RoundTrip(p.round, s0[1..]);
    AggregatedSignatureRoundTrip(p.signature, s0[1..][1..][1..]);
  }

  lemma {:induction false} AddressesRoundTrip(addresses: seq<Address>)
    ensures DecodeAddresses(EncodeAddresses(addresses)) == Ok(addresses)
  {
    if |addresses| > 0 {
      var items := EncodeAddresses(addresses);
      assert items[1..] == EncodeAddresses(addresses[1..]);
      AddressesRoundTrip(addresses[1..]);
      assert [addresses[0]] + addresses[1..] == addresses;
    }
  }

  lemma AggregatedChokeRoundTrip(qc: AggregatedChoke, items: seq<Item>)
    requires |items| > 0 && items[0] == EncodeAggregatedChoke(qc)
    ensures DecodeAggregatedChoke(items) == Ok((qc, items[1..]))
  {
    var s0 := items[0].items;
    U64RoundTrip(qc.height, s0);
    U64RoundTrip(qc.round, s0[1..]);
    AddressesRoundTrip(qc.voters);
  }

  /** Decoding inverts `Encodable for Proposal`, with and without a PoLC. */
  lemma ProposalRoundTrip<T(!new)>(cc: ContentCodec<T>, p: Proposal<T>, items: seq<Item>)
    requires ContentRoundTrips(cc)
    requires |items| > 0 && items[0] == EncodeProposal(cc, p)
    ensures DecodeProposal(cc, items) == Ok((p, items[1..]))
  {
    var s0 := items[0].items;
    BoolRoundTrip(p.lock.Some?, s0);
    var s1 := s0[1..];
    U64RoundTrip(p.height, s1);
    var s2 := s1[1..];
    U64RoundTrip(p.round, s2);
    var s3 := s2[1..];
    ContentRoundTrip(cc, p.content, s3);
    var s4 := s3[1..];
    var s5 := s4[1..];
    if p.lock.Some? {
      PoLCRoundTrip(p.lock.value, s5);
    }
  }

  lemma SignedProposalRoundTrip<T(!new)>(cc: ContentCodec<T>, sp: SignedProposal<T>, items: seq<Item>)
    requires ContentRoundTrips(cc)
    requires |items| > 0 && items[0] == EncodeSignedProposal(cc, sp)
    ensures DecodeSignedProposal(cc, items) == Ok((sp, items[1..]))
  {
    ProposalRoundTrip(cc, sp.proposal, items[0].items[1..]);
  }

  lemma CommitRoundTrip<T(!new)>(cc: ContentCodec<T>, c: Commit<T>, items: seq<Item>)
    requires ContentRoundTrips(cc)
    requires |items| > 0 && items[0] == EncodeCommit(cc, c)
    ensures DecodeCommit(cc, items) == Ok((c, items[1..]))
  {
    var s0 := items[0].items;
    U64RoundTrip(c.height, s0);
    ContentRoundTrip(cc, c.content, s0[1..]);
    ProofRoundTrip(c.proof, s0[1..][1..]);
  }

  lemma UpdateFromRoundTrip(u: UpdateFrom, items: seq<Item>)
    requires |items| > 0 && items[0] == EncodeUpdateFrom(u)
    ensures DecodeUpdateFrom(items) == Ok((u, items[1..]))
  {
    assert items == [EncodeUpdateFrom(u)] + items[1..];
    match u
    case PrevoteQC(qc) => PrevoteFromRoundTrip(qc, items[1..]);
    case PrecommitQC(qc) => PrecommitFromRoundTrip(qc, items[1..]);
    case ChokeQC(qc) => ChokeFromRoundTrip(qc, items[1..]);
  }

  lemma PrevoteFromRoundTrip(qc: AggregatedVote, rest: seq<Item>)
    ensures DecodeUpdateFrom([EncodeUpdateFrom(PrevoteQC(qc))] + rest) == Ok((PrevoteQC(qc), rest))
  {
    var items := [EncodeUpdateFrom(PrevoteQC(qc))] + rest;
    var s0 := items[0].items;
    assert items[1..] == rest;
    assert DecodeList(items) == Ok((s0, rest));
    U8RoundTrip(0, s0);
    assert DecodeU8(s0) == Ok((0 as byte, s0[1..]));
    AggregatedVoteRoundTrip(qc, s0[1..]);
    assert DecodeAggregatedVote(s0[1..]) == Ok((qc, s0[1..][1..]));
  }

  lemma PrecommitFromRoundTrip(qc: AggregatedVote, rest: seq<Item>)
    ensures DecodeUpdateFrom([EncodeUpdateFrom(PrecommitQC(qc))] + rest) == Ok((PrecommitQC(qc), rest))
  {
    var items := [EncodeUpdateFrom(PrecommitQC(qc))] + rest;
    var s0 := items[0].items;
    assert items[1..] == rest;
    assert DecodeList(items) == Ok((s0, rest));
    U8RoundTrip(1, s0);
    assert DecodeU8(s0) == Ok((1 as byte, s0[1..]));
    AggregatedVoteRoundTrip(qc, s0[1..]);
    assert DecodeAggregatedVote(s0[1..]) == Ok((qc, s0[1..][1..]));
  }

  lemma ChokeFromRoundTrip(qc: AggregatedChoke, rest: seq<Item>)
    ensures DecodeUpdateFrom([EncodeUpdateFrom(ChokeQC(qc))] + rest) == Ok((ChokeQC(qc), rest))
  {
    var items := [EncodeUpdateFrom(ChokeQC(qc))] + rest;
    var s0 := items[0].items;
    assert items[1..] == rest;
    assert DecodeList(items) == Ok((s0, rest));
    U8RoundTrip(2, s0);
    assert DecodeU8(s0) == Ok((2 as byte, s0[1..]));
    AggregatedChokeRoundTrip(qc, s0[1..]);
    assert DecodeAggregatedChoke(s0[1..]) == Ok((qc, s0[1..][1..]));
  }

  lemma WalLockRoundTrip<T(!new)>(cc: ContentCodec<T>, w: WalLock<T>, items: seq<Item>)
    requires ContentRoundTrips(cc)
    requires |items| > 0 && items[0] == EncodeWalLock(cc, w)
    ensures DecodeWalLock(cc, items) == Ok((w, items[1..]))
  {
    var s0 := items[0].items;
    U64RoundTrip(w.lockRound, s0);
    AggregatedVoteRoundTrip(w.lockVotes, s0[1..]);
    ContentRoundTrip(cc, w.content, s0[1..][1..]);
  }

  /** Decoding inverts `Encodable for WalInfo`, with and without a lock. */
  lemma WalInfoRoundTrip<T(!new)>(cc: ContentCodec<T>, w: WalInfo<T>, items: seq<Item>)
    requires ContentRoundTrips(cc)
    requires |items| > 0 && items[0] == EncodeWalInfo(cc, w)
    ensures DecodeWalInfo(cc, items) == Ok((w, items[1..]))
  {
    var s0 := items[0].items;
    BoolRoundTrip(w.lock.Some?, s0);
    var s1 := s0[1..];
    U64RoundTrip(w.height, s1);
    var s2 := s1[1..];
    U64RoundTrip(w.round, s2);
    var s3 := s2[1..];
    StepRoundTrip(w.step, s3);
    var s4 := s3[1..];
    if w.lock.Some? {
      WalLockRoundTrip(cc, w.lock.value, s4);
      UpdateFromRoundTrip(w.from, s4[1..]);
    } else {
      UpdateFromRoundTrip(w.from, s4);
    }
  }

  // ---------------------------------------------------------------------------------------
  // Refused inputs

  /** A vote-type byte other than 1 and 2 makes the decoder panic rather than return an error. */
  lemma VoteTypeDecodePanics(b: byte, rest: seq<Item>)
    requires b != 1 && b != 2
    ensures DecodeVoteType([RlpList([EncodeUint(b)] + rest)]) == Err(Panicked(VOTE_TYPE_UNWRAP))
  {
    U8RoundTrip(b, [EncodeUint(b)] + rest);
  }

  /** A step byte above 4 makes the decoder panic. */
  lemma StepDecodePanics(b: byte, rest: seq<Item>)
    requires b > 4
    ensures DecodeStep([RlpList([EncodeUint(b)] + rest)]) == Err(Panicked(INVALID_STEP))
  {
    U8RoundTrip(b, [EncodeUint(b)] + rest);
  }

  /** An `UpdateFrom` tag above 2 is refused with a custom error, whatever follows it. */
  lemma UpdateFromInvalidTag(tag: byte, rest: seq<Item>)
    requires tag > 2
    ensures DecodeUpdateFrom([RlpList([EncodeUint(tag)] + rest)]) == Err(Custom(INVALID_UPDATE_FROM))
  {
    U8RoundTrip(tag, [EncodeUint(tag)] + rest);
  }

  /** Content the application codec refuses makes a commit undecodable with the content error. */
  lemma CommitContentRefused<T>(cc: ContentCodec<T>, height: u64, bytes: Bytes, rest: seq<Item>)
    requires cc.fromBytes(bytes).None?
    ensures DecodeCommit(cc, [RlpList([EncodeUint(height), EncodeBytes(bytes)] + rest)])
            == Err(Custom(CONTENT_ERROR))
  {
    var payload := [EncodeUint(height), EncodeBytes(bytes)] + rest;
    U64RoundTrip(height, payload);
    BytesRoundTrip(bytes, payload[1..]);
  }

  /** A proposal whose presence flag is neither 0 nor 1 is refused. */
  lemma ProposalBadFlag<T>(cc: ContentCodec<T>, flag: byte, rest: seq<Item>)
    requires flag > 1
    ensures DecodeProposal(cc, [RlpList([EncodeUint(flag)] + rest)]) == Err(Custom(INVALID_BOOL))
  {
    BoolRejects(flag, [EncodeUint(flag)] + rest);
  }
}

=== FILE: collectors.dfy ===
/**
 * The vote, proposal and choke collectors and the authority manager of the State layer.
 * Their source (src/state/collection.rs and src/utils/auth_manage.rs) is not part of this
 * model: they are represented by the maps below, with the lookups the State layer relies on.
 * The error values of failed lookups are placeholders.
 */
module Collectors {
  import opened Wrappers
  import opened Primitives
  import opened Errors
  import opened Types

  // ---------------------------------------------------------------------------------------
  // Vote collector

  datatype VoteKey = VoteKey(height: u64, round: u64, voteType: VoteType)

  /**
   * Signed votes grouped by (height, round, type), then by block hash, then by voter, and the
   * quorum certificates that have been formed or received.
   */
  datatype VoteCollector = VoteCollector(
    votes: map<VoteKey, map<Hash, map<Address, SignedVote>>>,
    qcs: map<VoteKey, AggregatedVote>)

  const NO_QC: string := "no quorum certificate"
  const NO_VOTES: string := "no votes"

  function EmptyVoteCollector(): (c: VoteCollector)
    ensures forall k: VoteKey :: k !in c.votes && k !in c.qcs
  {
    VoteCollector(map[], map[])
  }

  function VoteKeyOf(sv: SignedVote): VoteKey {
    VoteKey(sv.vote.height, sv.vote.round, sv.vote.voteType)
  }

  function QcKey(qc: AggregatedVote): VoteKey {
    VoteKey(qc.height, qc.round, qc.voteType)
  }

  /** `VoteCollector::get_qc_by_id`. */
  function GetQcById(c: VoteCollector, height: u64, round: u64, t: VoteType): (r: Result<AggregatedVote, ConsensusError>)
    ensures r.Ok? <==> VoteKey(height, round, t) in c.qcs
    ensures r.Ok? ==> r.value == c.qcs[VoteKey(height, round, t)]
    ensures r.Err? ==> r.error.StorageErr?
  {
    var k := VoteKey(height, round, t);
    if k in c.qcs then Ok(c.qcs[k]) else Err(StorageErr(NO_QC))
  }

  /** `VoteCollector::set_qc`: the certificate becomes the one of its (height, round, type). */
  function SetQc(c: VoteCollector, qc: AggregatedVote): (c': VoteCollector)
    ensures GetQcById(c', qc.height, qc.round, qc.voteType) == Ok(qc)
    ensures forall k :: k != QcKey(qc) ==> (k in c'.qcs <==> k in c.qcs)
    ensures forall k :: k != QcKey(qc) && k in c.qcs ==> c'.qcs[k] == c.qcs[k]
    ensures c'.votes == c.votes
  {
    c.(qcs := c.qcs[QcKey(qc) := qc])
  }

  /** `VoteCollector::insert_vote`: the vote is filed under its key, its hash and its voter. */
  function InsertVote(c: VoteCollector, hash: Hash, sv: SignedVote, voter: Address): (c': VoteCollector)
    ensures c'.qcs == c.qcs
    ensures VoteKeyOf(sv) in c'.votes && hash in c'.votes[VoteKeyOf(sv)]
    ensures voter in c'.votes[VoteKeyOf(sv)][hash] && c'.votes[VoteKeyOf(sv)][hash][voter] == sv
    ensures forall k :: k != VoteKeyOf(sv) ==> (k in c'.votes <==> k in c.votes)
    ensures forall k :: k != VoteKeyOf(sv) && k in c.votes ==> c'.votes[k] == c.votes[k]
  {
    var k := VoteKeyOf(sv);
    var byHash := if k in c.votes then c.votes[k] else map[];
    var byVoter := if hash in byHash then byHash[hash] else map[];
    c.(votes := c.votes[k := byHash[hash := byVoter[voter := sv]]])
  }

  /** `VoteCollector::get_vote_map`: for each block hash, the set of its voters. */
  function GetVoteMap(c: VoteCollector, height: u64, round: u64, t: VoteType): (r: Result<map<Hash, set<Address>>, ConsensusError>)
    ensures r.Ok? <==> VoteKey(height, round, t) in c.votes
    ensures r.Ok? ==> forall h :: h in r.value <==> h in c.votes[VoteKey(height, round, t)]
    ensures r.Ok? ==> forall h, a :: h in r.value ==>
                (a in r.value[h] <==> a in c.votes[VoteKey(height, round, t)][h])
  {
    var k := VoteKey(height, round, t);
    if k !in c.votes then Err(StorageErr(NO_VOTES))
    else
      var byHash := c.votes[k];
      Ok(map h | h in byHash :: byHash[h].Keys)
  }

  /** `VoteCollector::get_votes`: the signed votes for one block hash. */
  function GetVotes(c: VoteCollector, height: u64, round: u64, t: VoteType, hash: Hash): (r: Result<map<Address, SignedVote>, ConsensusError>)
    ensures r.Ok? <==> VoteKey(height, round, t) in c.votes && hash in c.votes[VoteKey(height, round, t)]
    ensures r.Ok? ==> r.value == c.votes[VoteKey(height, round, t)][hash]
  {
    var k := VoteKey(height, round, t);
    if k in c.votes && hash in c.votes[k] then Ok(c.votes[k][hash]) else Err(StorageErr(NO_VOTES))
  }

  /** `VoteCollector::flush(till)`: everything at a height up to `till` is dropped. */
  function FlushVotes(c: VoteCollector, till: u64): (c': VoteCollector)
    ensures forall k :: k in c'.votes <==> k in c.votes && k.height > till
    ensures forall k :: k in c'.qcs <==> k in c.qcs && k.height > till
    ensures forall k :: k in c'.votes ==> c'.votes[k] == c.votes[k]
    ensures forall k :: k in c'.qcs ==> c'.qcs[k] == c.qcs[k]
  {
    VoteCollector(
      map k | k in c.votes && k.height > till :: c.votes[k],
      map k | k in c.qcs && k.height > till :: c.qcs[k])
  }

  // ---------------------------------------------------------------------------------------
  // Proposal collector

  datatype Slot = Slot(height: u64, round: u64)

  /** Signed proposals cached for a later (height, round). */
  type ProposalCollector<T> = map<Slot, SignedProposal<T>>

  function InsertProposal<T>(c: ProposalCollector<T>, height: u64, round: u64, sp: SignedProposal<T>): (c': ProposalCollector<T>)
    ensures Slot(height, round) in c' && c'[Slot(height, round)] == sp
    ensures forall s :: s != Slot(height, round) ==> (s in c' <==> s in c)
    ensures forall s :: s != Slot(height, round) && s in c ==> c'[s] == c[s]
  {
    c[Slot(height, round) := sp]
  }

  function FlushProposals<T>(c: ProposalCollector<T>, till: u64): (c': ProposalCollector<T>)
    ensures forall s :: s in c' <==> s in c && s.height > till
    ensures forall s :: s in c' ==> c'[s] == c[s]
  {
    map s | s in c && s.height > till :: c[s]
  }

  /** `ProposalCollector::get_height_proposals`: the cached proposals of one height. */
  function HeightProposals<T>(c: ProposalCollector<T>, height: u64): (r: map<Slot, SignedProposal<T>>)
    ensures forall s :: s in r <==> s in c && s.height == height
    ensures forall s :: s in r ==> r[s] == c[s]
  {
    map s | s in c && s.height == height :: c[s]
  }

  // ---------------------------------------------------------------------------------------
  // Choke collector

  /** Signed chokes by round in arrival order, and the choke certificates by round. */
  datatype ChokeCollector = ChokeCollector(chokes: map<u64, seq<SignedChoke>>, qcs: map<u64, AggregatedChoke>)

  function EmptyChokeCollector(): (c: ChokeCollector)
    ensures forall r: u64 :: r !in c.chokes && r !in c.qcs
  {
    ChokeCollector(map[], map[])
  }

  function RoundChokes(c: ChokeCollector, round: u64): seq<SignedChoke> {
    if round in c.chokes then c.chokes[round] else []
  }

  /** `ChokeCollector::insert`: a signed choke is kept once per round. */
  function InsertChoke(c: ChokeCollector, round: u64, sc: SignedChoke): (c': ChokeCollector)
    ensures sc in RoundChokes(c', round)
    ensures forall x :: x in RoundChokes(c', round) <==> x in RoundChokes(c, round) || x == sc
    ensures forall r :: r != round ==> RoundChokes(c', r) == RoundChokes(c, r)
    ensures c'.qcs == c.qcs
  {
    var stored := RoundChokes(c, round);
    if sc in stored then c.(chokes := c.chokes[round := stored])
    else c.(chokes := c.chokes[round := stored + [sc]])
  }

  function SetChokeQc(c: ChokeCollector, round: u64, qc: AggregatedChoke): (c': ChokeCollector)
    ensures round in c'.qcs && c'.qcs[round] == qc
    ensures forall r :: r != round ==> (r in c'.qcs <==> r in c.qcs)
    ensures forall r :: r != round && r in c.qcs ==> c'.qcs[r] == c.qcs[r]
    ensures c'.chokes == c.chokes
  {
    c.(qcs := c.qcs[round := qc])
  }

  function GetChokeQc(c: ChokeCollector, round: u64): (r: Option<AggregatedChoke>)
    ensures r.Some? <==> round in c.qcs
    ensures r.Some? ==> r.value == c.qcs[round]
  {
    if round in c.qcs then Some(c.qcs[round]) else None
  }

  // ---------------------------------------------------------------------------------------
  // Authority manager

  /** `AuthorityManage::contains`. */
  predicate IsAuthority(authority: seq<Node>, address: Address) {
    exists i :: 0 <= i < |authority| && authority[i].address == address
  }

  /** `AuthorityManage::get_vote_weight`: the weight of the first node with `address`. */
  function VoteWeight(authority: seq<Node>, address: Address): (r: Result<u32, ConsensusError>)
    ensures r.Ok? <==> IsAuthority(authority, address)
    ensures r.Err? ==> r.error == InvalidAddress
    ensures r.Ok? ==> exists i :: 0 <= i < |authority| && authority[i].address == address
                                  && authority[i].voteWeight == r.value
  {
    if |authority| == 0 then Err(InvalidAddress)
    else if authority[0].address == address then Ok(authority[0].voteWeight)
    else
      var r := VoteWeight(authority[1..], address);
      assert forall i :: 1 <= i < |authority| ==> authority[i] == authority[1..][i - 1];
      assert IsAuthority(authority[1..], address) ==> IsAuthority(authority, address);
      r
  }

  /** The vote weight of an address, zero for one outside the authority list. */
  function WeightOf(authority: seq<Node>, address: Address): nat {
    match VoteWeight(authority, address)
    case Ok(w) => w
    case Err(_) => 0
  }

  /** `AuthorityManage::get_vote_weight_sum`. */
  function TotalVoteWeight(authority: seq<Node>): nat {
    if |authority| == 0 then 0 else authority[0].voteWeight + TotalVoteWeight(authority[1..])
  }

  /** The addresses of the authority list, in its order (`get_address_ref`). */
  function Addresses(authority: seq<Node>): (r: seq<Address>)
    ensures |r| == |authority|
    ensures forall i :: 0 <= i < |r| ==> r[i] == authority[i].address
  {
    seq(|authority|, i requires 0 <= i < |authority| => authority[i].address)
  }
}

=== FILE: errors.dfy ===
/** The consensus error enumeration, and the outcome of a Rust panic. */
module Errors {
  import opened Primitives

  datatype ConsensusError =
    | InvalidAddress
    | ChannelErr(channel: string)
    | TriggerSMRErr(trigger: string)
    | MonitorEventErr(monitor: string)
    | ThrowEventErr(throw: string)
    | ProposalErr(proposal: string)
    | PrevoteErr(prevote: string)
    | PrecommitErr(precommit: string)
    | BrakeErr(brake: string)
    | RoundDiff(local: u64, vote: u64)
    | SelfCheckErr(selfCheck: string)
    | CorrectnessErr(correctness: string)
    | TimerErr(timer: string)
    | StateErr(state: string)
    | MultiProposal(multiHeight: u64, multiRound: u64)
    | StorageErr(storage: string)
    | SaveWalErr(walHeight: u64, walRound: u64, walStep: string)
    | LoadWalErr(loadWal: string)
    | CryptoErr(crypto: string)
    | AggregatedSignatureErr(aggregated: string)
    | Other(other: string)

  /** A `panic!`, `unreachable!` or failed `unwrap`: the thread unwinds with this message. */
  datatype Panic = Panic(message: string)

  const UNREACHABLE: string := "internal error: entered unreachable code"
}

=== FILE: primitives.dfy ===
/** Fixed-width integers, byte strings with their lexicographic order, and decimal formatting. */
module Primitives {

  const U64_LIMIT: int := 0x1_0000_0000_0000_0000
  const U64_MAX: int := U64_LIMIT - 1
  const U32_LIMIT: int := 0x1_0000_0000

  type byte = x: int | 0 <= x < 256
  type u32 = x: int | 0 <= x < U32_LIMIT
  type u64 = x: int | 0 <= x < U64_LIMIT

  /** `bytes::Bytes`, used for addresses, hashes and signatures. */
  type Bytes = seq<byte>

  /** `std::cmp::Ordering`. */
  datatype Ordering = Less | Equal | Greater

  function Flip(o: Ordering): Ordering {
    match o
    case Less => Greater
    case Equal => Equal
    case Greater => Less
  }

  /** The derived `Ord` of a byte string: lexicographic, a proper prefix is smaller. */
  function CompareBytes(a: Bytes, b: Bytes): (o: Ordering)
    ensures o == Equal <==> a == b
    ensures o == Less ==> a != b
  {
    if |a| == 0 && |b| == 0 then Equal
    else if |a| == 0 then Less
    else if |b| == 0 then Greater
    else if a[0] < b[0] then Less
    else if a[0] > b[0] then Greater
    else
      var o := CompareBytes(a[1..], b[1..]);
      assert o == Equal ==> a == [a[0]] + a[1..] == [b[0]] + b[1..] == b;
      assert a == b ==> a[1..] == b[1..];
      o
  }

  /** Swapping the operands flips the comparison. */
  lemma {:induction false} CompareBytesFlip(a: Bytes, b: Bytes)
    ensures CompareBytes(b, a) == Flip(CompareBytes(a, b))
  {
    if |a| > 0 && |b| > 0 && a[0] == b[0] {
      CompareBytesFlip(a[1..], b[1..]);
    }
  }

  /** Two byte strings are always comparable: one of them is at most the other. */
  lemma CompareBytesTotal(a: Bytes, b: Bytes)
    ensures CompareBytes(a, b) != Greater || CompareBytes(b, a) != Greater
  {
    CompareBytesFlip(a, b);
  }

  /** The decimal rendering of `n` (Rust's `Display` for unsigned integers). */
  function Decimal(n: nat): (s: string)
    ensures |s| > 0
    ensures forall i :: 0 <= i < |s| ==> '0' <= s[i] <= '9'
    ensures s[0] == '0' ==> n == 0
    ensures DecimalValue(s) == n
  {
    if n < 10 then [DigitChar(n)]
    else
      var prefix := Decimal(n / 10);
      var s := prefix + [DigitChar(n % 10)];
      assert s[..|s| - 1] == prefix;
      s
  }

  function DigitChar(d: nat): (c: char)
    requires d < 10
    ensures '0' <= c <= '9' && (c as int) - ('0' as int) == d
  {
    (('0' as int) + d) as char
  }

  /** `s` is a non-empty run of decimal digits whose value is `n`. */
  predicate IsDecimalOf(s: string, n: nat) {
    && |s| > 0
    && (forall i :: 0 <= i < |s| ==> '0' <= s[i] <= '9')
    && DecimalValue(s) == n
  }

  /** Reads a string of decimal digits back into a number. */
  function DecimalValue(s: string): nat
    requires forall i :: 0 <= i < |s| ==> '0' <= s[i] <= '9'
  {
    if |s| == 0 then 0
    else DecimalValue(s[..|s| - 1]) * 10 + ((s[|s| - 1] as int) - ('0' as int))
  }
}

=== FILE: process.dfy ===
/**
 * The State layer of the consensus engine (`src/state/process.rs`): the node's view of the
 * current height and round, and the handlers that admit, count and record messages. Each
 * handler is a pure transition from a state to a new state, the effects it emits (triggers to
 * the state machine, broadcasts, write-ahead-log records, ...) and a result.
 */
module Process {
  import opened Wrappers
  import opened Primitives
  import opened Errors
  import opened Types
  import opened SmrTypes
  import opened WalTypes
  import opened Collectors
  import opened Window
  import opened Quorum

  const INIT_HEIGHT: u64 := 0
  const INIT_ROUND: u64 := 0

  /** The node state (`State`), without its channels and collaborators. */
  datatype NodeState<T> = NodeState(
    height: u64,
    round: u64,
    address: Address,
    proposals: ProposalCollector<T>,
    votes: VoteCollector,
    chokes: ChokeCollector,
    authority: seq<Node>,
    hashWithBlock: map<Hash, T>,
    isFullTransaction: map<Hash, bool>,
    isLeader: bool,
    leaderAddress: Address,
    updateFromWhere: UpdateFrom,
    blockInterval: u64,
    consensusPower: bool,
    stopped: bool)

  /**
   * The collaborators the handlers consult: proposer election and the choke threshold of the
   * authority manager and choke collector, the crypto provider and the application's block
   * source. Failures are rendered as strings.
   */
  datatype Env<!T> = Env(
    proposer: (seq<Node>, u64, u64) -> Result<Address, ConsensusError>,
    aggregate: Aggregator,
    signChoke: HashChoke -> Result<Signature, string>,
    signProposal: Proposal<T> -> Result<Signature, string>,
    getBlock: u64 -> Result<(T, Hash), string>,
    maxRoundAboveThreshold: (ChokeCollector, nat) -> Option<u64>)

  /** What a handler hands to the outside world. */
  datatype Effect<T> =
    | Trigger(trigger: SMRTrigger)
    | Broadcast(msg: OverlordMsg<T>)
    | SaveWal(info: WalInfo<T>)
    | CheckBlock(checkHeight: u64, checkRound: u64, checkHash: Hash, block: T)
    | ReportViewChange(viewHeight: u64, viewRound: u64, reason: ViewChangeReason)
    | RecheckProposals(cached: map<Slot, SignedProposal<T>>)
    | RecheckVotes(cachedVotes: map<VoteKey, map<Hash, map<Address, SignedVote>>>, cachedQcs: map<VoteKey, AggregatedVote>)
    | HandleProposal(signedProposal: SignedProposal<T>)
    | HandleCommit(commitHash: Hash)
    | NewHeightStatus(status: SMRStatus)

  datatype Outcome<T> = Outcome(st: NodeState<T>, effects: seq<Effect<T>>, res: Result<(), ConsensusError>)

  function Unchanged<T>(st: NodeState<T>): Outcome<T> {
    Outcome(st, [], Ok(()))
  }

  function Failed<T>(st: NodeState<T>, effects: seq<Effect<T>>, e: ConsensusError): Outcome<T> {
    Outcome(st, effects, Err(e))
  }

  function StateTrigger(t: TriggerType, hash: Hash, lockRound: Option<u64>, round: nat, height: u64,
                        walInfo: Option<SMRBase>): Effect {
    Trigger(SMRTrigger(t, TriggerSource.State, hash, lockRound, round, height, walInfo))
  }

  // ---------------------------------------------------------------------------------------
  // Lookups

  /** `try_get_full_txs`: an empty hash needs no block; otherwise the recorded check verdict. */
  function TryGetFullTxs<T>(st: NodeState<T>, hash: Hash): (full: bool)
    ensures |hash| == 0 ==> full
    ensures |hash| > 0 && hash !in st.isFullTransaction ==> !full
    ensures |hash| > 0 && hash in st.isFullTransaction ==> full == st.isFullTransaction[hash]
  {
    if |hash| == 0 then true
    else if hash in st.isFullTransaction then st.isFullTransaction[hash]
    else false
  }

  /** `mock_init_qc`: the empty precommit certificate a node starts from. */
  function MockInitQc(): (qc: AggregatedVote)
    ensures qc.voteType == VoteType.Precommit && qc.height == 0 && qc.round == 0
    ensures qc.blockHash == [] && qc.leader == [] && qc.signature == AggregatedSignature([], [])
  {
    AggregatedVote(AggregatedSignature([], []), VoteType.Precommit, 0, 0, [], [])
  }

  /** `filter_signed_proposal`: the state, and whether the proposal is done with. */
  function FilterSignedProposal<T>(st: NodeState<T>, height: u64, round: u64, sp: SignedProposal<T>)
    : (r: (NodeState<T>, bool))
    ensures !r.1 <==> height == st.height && round == st.round
    ensures FilterMessage(st.height, st.round, height, round) ==> r.0 == st
    ensures !FilterMessage(st.height, st.round, height, round) && r.1 ==>
              r.0 == st.(proposals := InsertProposal(st.proposals, height, round, sp))
    ensures !r.1 ==> r.0 == st
  {
    if FilterMessage(st.height, st.round, height, round) then (st, true)
    else if (height == st.height && round != st.round) || height > st.height then
      (st.(proposals := InsertProposal(st.proposals, height, round, sp)), true)
    else (st, false)
  }

  /** A proposal is cached exactly when it is inside the window but not for the current round. */
  lemma FilterSignedProposalCaches<T>(st: NodeState<T>, height: u64, round: u64, sp: SignedProposal<T>)
    ensures var r := FilterSignedProposal(st, height, round, sp);
            Slot(height, round) in r.0.proposals && r.0.proposals[Slot(height, round)] == sp
            <== InWindow(st.height, st.round, height, round) && !(height == st.height && round == st.round)
  {
  }

  // ---------------------------------------------------------------------------------------
  // Quorum certificates from the network

  /**
   * `handle_aggregated_vote`: outdated certificates are ignored, those of the next heights are
   * stored without triggering, and one of the current height is stored and, once its block is
   * checked, triggers the state machine.
   */
  function HandleAggregatedVote<T>(st: NodeState<T>, qc: AggregatedVote): (o: Outcome<T>)
    ensures o.res.Ok?
    ensures qc.height < st.height ==> o == Unchanged(st)
    ensures qc.height > st.height ==> o.effects == []
    ensures qc.height > st.height ==>
              o.st == (if st.height + FUTURE_HEIGHT_GAP > qc.height && qc.round < FUTURE_ROUND_GAP
                       then st.(votes := SetQc(st.votes, qc)) else st)
    ensures qc.height == st.height && qc.round < st.round && (qc.voteType == VoteType.Prevote || |qc.blockHash| == 0) ==>
              o == Unchanged(st)
    ensures qc.height == st.height && !(qc.round < st.round && (qc.voteType == VoteType.Prevote || |qc.blockHash| == 0)) ==>
              o.st == st.(votes := SetQc(st.votes, qc))
                  && (o.effects == [] <==> |qc.blockHash| > 0 && !TryGetFullTxs(st, qc.blockHash))
    ensures o.effects != [] ==>
              qc.height == st.height && o.effects == [StateTrigger(VoteTypeToTrigger(qc.voteType), qc.blockHash, None, qc.round, qc.height, None)]
  {
    if qc.height < st.height then Unchanged(st)
    else if qc.height > st.height then
      if st.height + FUTURE_HEIGHT_GAP > qc.height && qc.round < FUTURE_ROUND_GAP then
        Unchanged(st.(votes := SetQc(st.votes, qc)))
      else Unchanged(st)
    else if qc.voteType == VoteType.Prevote && qc.round < st.round then Unchanged(st)
    else if qc.voteType == VoteType.Precommit && |qc.blockHash| == 0 && qc.round < st.round then Unchanged(st)
    else
      var st' := st.(votes := SetQc(st.votes, qc));
      if |qc.blockHash| > 0 && !TryGetFullTxs(st, qc.blockHash) then Unchanged(st')
      else Outcome(st', [StateTrigger(VoteTypeToTrigger(qc.voteType), qc.blockHash, None, qc.round, qc.height, None)], Ok(()))
  }

  /** A certificate of a later height is only stored when the message filter would admit it. */
  lemma FutureQcInsideWindow<T>(st: NodeState<T>, qc: AggregatedVote)
    requires qc.height > st.height
    requires HandleAggregatedVote(st, qc).st != st
    ensures !FilterMessage(st.height, st.round, qc.height, qc.round)
  {
  }

  const CHOKE_BELOW_THRESHOLD: string := "choke qc is not above threshold"

  /**
   * `handle_aggregated_choke`: a choke certificate needs strictly more than two thirds of the
   * authorities; it is then recorded and the state machine continues with the next round.
   */
  function HandleAggregatedChoke<T>(st: NodeState<T>, qc: AggregatedChoke): (o: Outcome<T>)
    ensures o.res.Err? <==> 3 * |qc.voters| <= 2 * |st.authority|
    ensures o.res.Err? ==> o == Failed(st, [], BrakeErr(CHOKE_BELOW_THRESHOLD))
    ensures o.res.Ok? ==> o.st == st.(chokes := SetChokeQc(st.chokes, qc.round, qc))
    ensures o.res.Ok? ==> o.effects == [StateTrigger(ContinueRound, [], None, qc.round + 1, st.height, None)]
  {
    if ChokeLen(qc) * 3 <= |st.authority| * 2 then Failed(st, [], BrakeErr(CHOKE_BELOW_THRESHOLD))
    else
      var choke := AggregatedChokeToHash(qc);
      Outcome(st.(chokes := SetChokeQc(st.chokes, choke.round, qc)),
              [StateTrigger(ContinueRound, [], None, choke.round + 1, st.height, None)], Ok(()))
  }

  function ChokeSignatures(s: seq<SignedChoke>): (r: seq<Signature>)
    ensures |r| == |s| && forall i :: 0 <= i < |s| ==> r[i] == s[i].signature
  {
    seq(|s|, i requires 0 <= i < |s| => s[i].signature)
  }

  function ChokeVoters(s: seq<SignedChoke>): (r: seq<Address>)
    ensures |r| == |s| && forall i :: 0 <= i < |s| ==> r[i] == s[i].address
  {
    seq(|s|, i requires 0 <= i < |s| => s[i].address)
  }

  /**
   * `check_choke_above_threshold`: when the choke collector reports a round at or after the
   * current one with enough chokes, their signatures are aggregated into a choke certificate
   * and the state machine continues with the round after it.
   */
  function CheckChokeAboveThreshold<T>(env: Env<T>, st: NodeState<T>): (o: Outcome<T>)
    ensures o.st.height == st.height && o.st.round == st.round && o.st.chokes.chokes == st.chokes.chokes
    ensures o.st == st.(chokes := o.st.chokes)
    ensures env.maxRoundAboveThreshold(st.chokes, |st.authority|).None? ==> o == Unchanged(st)
    ensures o.res.Err? ==> o.st == st && o.effects == [] && o.res.error.CryptoErr?
    ensures o.effects != [] ==>
              var round := env.maxRoundAboveThreshold(st.chokes, |st.authority|).value;
              && round >= st.round
              && round in o.st.chokes.qcs
              && o.st.chokes.qcs[round].voters == ChokeVoters(RoundChokes(st.chokes, round))
              && o.st.chokes.qcs[round].height == st.height
              && o.effects == [StateTrigger(ContinueRound, [], None, round + 1, st.height, None)]
    ensures env.maxRoundAboveThreshold(st.chokes, |st.authority|).Some? &&
            env.maxRoundAboveThreshold(st.chokes, |st.authority|).value < st.round ==>
              o == Unchanged(st)
    ensures env.maxRoundAboveThreshold(st.chokes, |st.authority|).Some? &&
            env.maxRoundAboveThreshold(st.chokes, |st.authority|).value >= st.round ==>
              var round := env.maxRoundAboveThreshold(st.chokes, |st.authority|).value;
              var voters := ChokeVoters(RoundChokes(st.chokes, round));
              var sig := env.aggregate(ChokeSignatures(RoundChokes(st.chokes, round)), voters);
              && (sig.Err? ==> o == Failed(st, [], CryptoErr(sig.error)))
              && (sig.Ok? ==>
                    && o.res.Ok?
                    && GetChokeQc(o.st.chokes, round) == Some(AggregatedChoke(st.height, round, sig.value, voters))
                    && (forall r :: r != round ==> GetChokeQc(o.st.chokes, r) == GetChokeQc(st.chokes, r))
                    && o.effects == [StateTrigger(ContinueRound, [], None, round + 1, st.height, None)])
  {
    match env.maxRoundAboveThreshold(st.chokes, |st.authority|)
    case None => Unchanged(st)
    case Some(round) =>
      if round < st.round then Unchanged(st)
      else
        var signed := RoundChokes(st.chokes, round);
        var voters := ChokeVoters(signed);
        match env.aggregate(ChokeSignatures(signed), voters)
        case Err(e) => Failed(st, [], CryptoErr(e))
        case Ok(sig) =>
          Outcome(st.(chokes := SetChokeQc(st.chokes, round, AggregatedChoke(st.height, round, sig, voters))),
                  [StateTrigger(ContinueRound, [], None, round + 1, st.height, None)], Ok(()))
  }

  /**
   * `handle_signed_choke`: chokes of another height or an earlier round are ignored; one of a
   * later round is read as the certificate it carries; one of the current round is collected.
   */
  function HandleSignedChoke<T>(env: Env<T>, st: NodeState<T>, sc: SignedChoke): (o: Outcome<T>)
    ensures sc.choke.height != st.height || sc.choke.round < st.round ==> o == Unchanged(st)
    ensures sc.choke.height == st.height && sc.choke.round > st.round ==>
              o == match sc.choke.from
                   case PrevoteQC(qc) => HandleAggregatedVote(st, qc)
                   case PrecommitQC(qc) => HandleAggregatedVote(st, qc)
                   case ChokeQC(qc) => HandleAggregatedChoke(st, qc)
    ensures sc.choke.height == st.height && sc.choke.round == st.round ==>
              sc in RoundChokes(o.st.chokes, st.round) && o.st.height == st.height && o.st.round == st.round
    ensures sc.choke.height == st.height && sc.choke.round == st.round ==>
              o == CheckChokeAboveThreshold(env, st.(chokes := InsertChoke(st.chokes, st.round, sc)))
  {
    var choke := sc.choke;
    if choke.height != st.height then Unchanged(st)
    else if choke.round < st.round then Unchanged(st)
    else if choke.round > st.round then
      match choke.from
      case PrevoteQC(qc) => HandleAggregatedVote(st, qc)
      case PrecommitQC(qc) => HandleAggregatedVote(st, qc)
      case ChokeQC(qc) => HandleAggregatedChoke(st, qc)
    else
      CheckChokeAboveThreshold(env, st.(chokes := InsertChoke(st.chokes, choke.round, sc)))
  }

  // ---------------------------------------------------------------------------------------
  // Round and height changes

  /** `set_update_from`: the certificate that justifies the new round. */
  function SetUpdateFrom<T>(st: NodeState<T>, fromWhere: FromWhere): (r: Result<NodeState<T>, ConsensusError>)
    ensures r.Ok? ==> r.value == st.(updateFromWhere := r.value.updateFromWhere)
    ensures r.Ok? && fromWhere.PrevoteQCRound? ==>
              GetQcById(st.votes, st.height, fromWhere.prevoteRound, VoteType.Prevote).Ok? &&
              r.value.updateFromWhere == PrevoteQC(GetQcById(st.votes, st.height, fromWhere.prevoteRound, VoteType.Prevote).value)
    ensures fromWhere.PrecommitQCRound? && fromWhere.precommitRound == U64_MAX ==>
              r == Ok(st.(updateFromWhere := PrecommitQC(MockInitQc())))
    ensures r.Ok? && fromWhere.PrecommitQCRound? && fromWhere.precommitRound != U64_MAX ==>
              GetQcById(st.votes, st.height, fromWhere.precommitRound, VoteType.Precommit).Ok? &&
              r.value.updateFromWhere ==
                PrecommitQC(GetQcById(st.votes, st.height, fromWhere.precommitRound, VoteType.Precommit).value)
    ensures r.Err? && fromWhere.ChokeQCRound? ==> r.error.BrakeErr?
    ensures r.Err? && !fromWhere.ChokeQCRound? ==>
              var got := GetQcById(st.votes, st.height, FromWhereRound(fromWhere),
                                   if fromWhere.PrevoteQCRound? then VoteType.Prevote else VoteType.Precommit);
              got.Err? && r == Err(got.error)
    ensures r.Ok? && fromWhere.ChokeQCRound? ==>
              fromWhere.chokeRound in st.chokes.qcs && r.value.updateFromWhere == ChokeQC(st.chokes.qcs[fromWhere.chokeRound])
    ensures r.Err? <==> match fromWhere
                        case PrevoteQCRound(round) => GetQcById(st.votes, st.height, round, VoteType.Prevote).Err?
                        case PrecommitQCRound(round) =>
                          round != U64_MAX && GetQcById(st.votes, st.height, round, VoteType.Precommit).Err?
                        case ChokeQCRound(round) => round !in st.chokes.qcs
  {
    var from :- match fromWhere
      case PrevoteQCRound(round) =>
        var qc :- GetQcById(st.votes, st.height, round, VoteType.Prevote);
        Ok(PrevoteQC(qc))
      case PrecommitQCRound(round) =>
        if round == U64_MAX then Ok(PrecommitQC(MockInitQc()))
        else
          var qc :- GetQcById(st.votes, st.height, round, VoteType.Precommit);
          Ok(PrecommitQC(qc))
      case ChokeQCRound(round) =>
        match GetChokeQc(st.chokes, round)
        case None => Err(BrakeErr("no choke qc height " + Decimal(st.height) + " round " + Decimal(round)))
        case Some(qc) => Ok(ChokeQC(qc));
    Ok(st.(updateFromWhere := from))
  }

  /** `view_change_reason`: why the node left round `round`. */
  function ViewChangeReasonOf<T>(st: NodeState<T>, round: u64, fromWhere: FromWhere): (reason: ViewChangeReason)
    ensures round != FromWhereRound(fromWhere) ==> reason == ToReason(fromWhere, round)
    ensures round == FromWhereRound(fromWhere) && st.isLeader ==>
              reason == LeaderReceivedVoteBelowThreshold(
                if GetQcById(st.votes, st.height, round, VoteType.Prevote).Ok?
                   && |GetQcById(st.votes, st.height, round, VoteType.Prevote).value.blockHash| > 0
                then VoteType.Precommit else VoteType.Prevote)
    ensures round == FromWhereRound(fromWhere) && !st.isLeader ==>
              (reason == NoProposalFromNetwork <==> Slot(st.height, round) !in st.proposals)
    ensures round == FromWhereRound(fromWhere) && !st.isLeader && Slot(st.height, round) in st.proposals ==>
              (reason == CheckBlockNotPass <==>
                 st.proposals[Slot(st.height, round)].proposal.blockHash !in st.isFullTransaction)
    ensures round == FromWhereRound(fromWhere) && !st.isLeader && Slot(st.height, round) in st.proposals
            && st.proposals[Slot(st.height, round)].proposal.blockHash in st.isFullTransaction ==>
              reason == (if GetQcById(st.votes, st.height, round, VoteType.Prevote).Err? then NoPrevoteQCFromNetwork
                         else if GetQcById(st.votes, st.height, round, VoteType.Precommit).Err? then NoPrecommitQCFromNetwork
                         else Others)
  {
    if round != FromWhereRound(fromWhere) then ToReason(fromWhere, round)
    else if st.isLeader then
      match GetQcById(st.votes, st.height, round, VoteType.Prevote)
      case Ok(qc) =>
        if |qc.blockHash| > 0 then LeaderReceivedVoteBelowThreshold(VoteType.Precommit)
        else LeaderReceivedVoteBelowThreshold(VoteType.Prevote)
      case Err(_) => LeaderReceivedVoteBelowThreshold(VoteType.Prevote)
    else if Slot(st.height, round) !in st.proposals then NoProposalFromNetwork
    else
      var proposal := st.proposals[Slot(st.height, round)];
      if proposal.proposal.blockHash !in st.isFullTransaction then CheckBlockNotPass
      else if GetQcById(st.votes, st.height, round, VoteType.Prevote).Err? then NoPrevoteQCFromNetwork
      else if GetQcById(st.votes, st.height, round, VoteType.Precommit).Err? then NoPrecommitQCFromNetwork
      else Others
  }

  const LOST_BLOCK: string := "lose whole block"
  const NO_LOCK_QC: string := "no qc"

  /**
   * `save_wal_with_lock_round`: the log record of the current height and round at `step`;
   * with a lock round it carries the prevote certificate of that round and its block.
   */
  function SaveWalWithLockRound<T>(st: NodeState<T>, step: Step, lockRound: Option<u64>)
    : (r: Result<WalInfo<T>, ConsensusError>)
    ensures r.Ok? ==> r.value.height == st.height && r.value.round == st.round && r.value.step == step
    ensures r.Ok? ==> r.value.from == st.updateFromWhere
    ensures r.Ok? ==> (r.value.lock.Some? <==> lockRound.Some?)
    ensures r.Ok? && lockRound.Some? ==>
              && r.value.lock.value.lockRound == lockRound.value
              && GetQcById(st.votes, st.height, lockRound.value, VoteType.Prevote) == Ok(r.value.lock.value.lockVotes)
              && r.value.lock.value.lockVotes.blockHash in st.hashWithBlock
              && st.hashWithBlock[r.value.lock.value.lockVotes.blockHash] == r.value.lock.value.content
    ensures r.Err? <==> (lockRound.Some? &&
              (GetQcById(st.votes, st.height, lockRound.value, VoteType.Prevote).Err?
               || GetQcById(st.votes, st.height, lockRound.value, VoteType.Prevote).value.blockHash !in st.hashWithBlock))
  {
    var lock :- match lockRound
      case None => Ok(None)
      case Some(round) =>
        match GetQcById(st.votes, st.height, round, VoteType.Prevote)
        case Err(_) => Err(Other(NO_LOCK_QC))
        case Ok(qc) =>
          if qc.blockHash !in st.hashWithBlock then Err(Other(LOST_BLOCK))
          else Ok(Some(WalLock(round, qc, st.hashWithBlock[qc.blockHash])));
    Ok(WalInfo(st.height, st.round, step, lock, st.updateFromWhere))
  }

  /**
   * `goto_new_height`: a status for a height not above the current one changes nothing;
   * otherwise the node moves to that height at round zero and, if it is one of the status's
   * authorities, drops what is older than the new height and hands the status on.
   */
  function GotoNewHeight<T>(st: NodeState<T>, status: Status): (o: Outcome<T>)
    ensures o.res.Ok?
    ensures status.height <= st.height ==> o == Unchanged(st)
    ensures status.height > st.height ==>
              o.st.height == status.height && o.st.round == INIT_ROUND
              && o.st.consensusPower == IsConsensusNode(status, st.address)
    ensures status.height > st.height && !IsConsensusNode(status, st.address) ==>
              o == Unchanged(st.(height := status.height, round := INIT_ROUND, consensusPower := false))
    ensures status.height > st.height && IsConsensusNode(status, st.address) ==>
              && o.st.authority == status.authorityList
              && (forall k :: k in o.st.votes.votes ==> k.height >= status.height)
              && (forall s :: s in o.st.proposals ==> s.height >= status.height)
              && o.st.hashWithBlock == map[]
              && o.st.chokes == EmptyChokeCollector()
              && |o.effects| >= 2
              && o.effects[0] == SaveWal(WalInfo(status.height, INIT_ROUND, Propose, None, st.updateFromWhere))
              && o.effects[|o.effects| - 1] == NewHeightStatus(StatusToSmr(status))
  {
    if status.height <= st.height then Unchanged(st)
    else
      var power := IsConsensusNode(status, st.address);
      var st1 := st.(height := status.height, round := INIT_ROUND, consensusPower := power);
      if !power then Unchanged(st1)
      else
        var st2 := ResetForHeight(st1, status);
        Outcome(st2, [SaveWal(WalInfo(status.height, INIT_ROUND, Propose, None, st1.updateFromWhere))]
                     + Recheck(st2) + [NewHeightStatus(StatusToSmr(status))], Ok(()))
  }

  /**
   * The bookkeeping of `goto_new_height` for a consensus node: the status's authorities and
   * interval are taken over, what is older than the new height is flushed, and the blocks and
   * chokes of the old height are forgotten.
   */
  function ResetForHeight<T>(st: NodeState<T>, status: Status): (st': NodeState<T>)
    requires st.height == status.height > 0
    ensures st'.height == st.height && st'.round == st.round && st'.consensusPower == st.consensusPower
    ensures st'.updateFromWhere == st.updateFromWhere
    ensures st'.authority == status.authorityList
    ensures status.interval.Some? ==> st'.blockInterval == status.interval.value
    ensures forall k :: k in st'.votes.votes ==> k.height >= status.height
    ensures forall k :: k in st'.votes.qcs ==> k.height >= status.height
    ensures forall s :: s in st'.proposals ==> s.height >= status.height
    ensures forall s :: s in st.proposals && s.height >= status.height ==> s in st'.proposals
    ensures forall k :: k in st.votes.votes && k.height >= status.height ==> k in st'.votes.votes
    ensures forall k :: k in st.votes.qcs && k.height >= status.height ==> k in st'.votes.qcs
    ensures st'.hashWithBlock == map[] && st'.chokes == EmptyChokeCollector()
  {
    st.(authority := status.authorityList,
        blockInterval := if status.interval.Some? then status.interval.value else st.blockInterval,
        proposals := FlushProposals(st.proposals, status.height - 1),
        votes := FlushVotes(st.votes, status.height - 1),
        hashWithBlock := map[],
        chokes := EmptyChokeCollector())
  }

  /** The re-checks `goto_new_height` starts: cached proposals, votes and QCs of the new height. */
  function Recheck<T>(st: NodeState<T>): (effects: seq<Effect<T>>)
    ensures |effects| <= 2
    ensures (exists s :: s in st.proposals && s.height == st.height) <==>
              (|effects| > 0 && effects[0].RecheckProposals?)
    ensures (exists k :: k in st.votes.votes && k.height == st.height) ||
            (exists k :: k in st.votes.qcs && k.height == st.height) <==>
              (|effects| > 0 && effects[|effects| - 1].RecheckVotes?)
  {
    var cached := HeightProposals(st.proposals, st.height);
    var recheckProposals := if cached == map[] then [] else [RecheckProposals(cached)];
    var heightVotes := map k | k in st.votes.votes && k.height == st.height :: st.votes.votes[k];
    var heightQcs := map k | k in st.votes.qcs && k.height == st.height :: st.votes.qcs[k];
    assert (exists k :: k in st.votes.votes && k.height == st.height) ==> heightVotes != map[] by {
      if exists k :: k in st.votes.votes && k.height == st.height {
        var k :| k in st.votes.votes && k.height == st.height;
        assert k in heightVotes;
      }
    }
    assert (exists k :: k in st.votes.qcs && k.height == st.height) ==> heightQcs != map[] by {
      if exists k :: k in st.votes.qcs && k.height == st.height {
        var k :| k in st.votes.qcs && k.height == st.height;
        assert k in heightQcs;
      }
    }
    var recheckVotes := if heightVotes == map[] && heightQcs == map[] then []
                        else [RecheckVotes(heightVotes, heightQcs)];
    recheckProposals + recheckVotes
  }

  /** Heights never go down, and a height change always restarts at round zero. */
  lemma GotoNewHeightMonotone<T>(st: NodeState<T>, status: Status)
    ensures GotoNewHeight(st, status).st.height >= st.height
    ensures GotoNewHeight(st, status).st.height != st.height ==>
              GotoNewHeight(st, status).st.height > st.height && GotoNewHeight(st, status).st.round == INIT_ROUND
  {
  }

  const LOCK_INCONSISTENT: string := "Lock round is inconsistent with lock proposal"
  // The source appends a debug rendering of the hash, and prefixes one of the storage error.
  const LOST_PROPOSAL_BLOCK: string := "Lose whole block that hash is "
  const NO_QC_WHEN_PROPOSE: string := " when propose"

  /**
   * `is_proposer`: records the leader of the current height and round and tells whether it
   * is this node.
   */
  function IsProposer<T>(env: Env<T>, st: NodeState<T>): (r: Result<(NodeState<T>, bool), ConsensusError>)
    ensures r.Ok? <==> env.proposer(st.authority, st.height, st.round).Ok?
    ensures r.Ok? ==> r.value.0 == st.(isLeader := r.value.1, leaderAddress := r.value.0.leaderAddress)
    ensures r.Ok? ==> r.value.0.leaderAddress == env.proposer(st.authority, st.height, st.round).value
    ensures r.Ok? ==> (r.value.1 <==> r.value.0.leaderAddress == st.address)
  {
    var proposer :- env.proposer(st.authority, st.height, st.round);
    if proposer == st.address then Ok((st.(isLeader := true, leaderAddress := st.address), true))
    else Ok((st.(isLeader := false, leaderAddress := proposer), false))
  }

  /** `o`, preceded by effects emitted before it. */
  function After<T>(effects: seq<Effect<T>>, o: Outcome<T>): Outcome<T> {
    Outcome(o.st, effects + o.effects, o.res)
  }

  /**
   * `handle_new_round`: reports the view change, moves to `newRound` as a non-leader, and
   * refuses a lock round without a lock proposal or the other way round. Then the certificate
   * of the new round is recorded and logged, and the leader builds, signs and broadcasts a
   * proposal while the others take up a proposal cached for this round.
   */
  function HandleNewRound<T>(env: Env<T>, st: NodeState<T>, newRound: u64, lockRound: Option<u64>,
                             lockProposal: Option<Hash>, fromWhere: FromWhere): (o: Outcome<T>)
    ensures o.st.round == newRound && o.st.height == st.height
    ensures newRound != INIT_ROUND ==>
              |o.effects| > 0 && o.effects[0] == ReportViewChange(st.height, st.round, ViewChangeReasonOf(st, st.round, fromWhere))
    ensures lockRound.Some? != lockProposal.Some? ==> o.res == Err(ProposalErr(LOCK_INCONSISTENT))
    ensures env.proposer(st.authority, st.height, newRound) != Err(ProposalErr(LOCK_INCONSISTENT)) ==>
              (o.res == Err(ProposalErr(LOCK_INCONSISTENT)) <==> lockRound.Some? != lockProposal.Some?)
    ensures lockRound.Some? != lockProposal.Some? ==> o.st == st.(round := newRound, isLeader := false)
    ensures o.res.Ok? ==>
              var i := if newRound != INIT_ROUND then 1 else 0;
              |o.effects| > i && o.effects[i].SaveWal? &&
              o.effects[i].info.height == st.height && o.effects[i].info.round == newRound &&
              o.effects[i].info.step == Propose && o.effects[i].info.from == o.st.updateFromWhere
  {
    var report := if newRound != INIT_ROUND
                  then [ReportViewChange(st.height, st.round, ViewChangeReasonOf(st, st.round, fromWhere))]
                  else [];
    var st1 := st.(round := newRound, isLeader := false);
    if lockRound.Some? != lockProposal.Some? then Failed(st1, report, ProposalErr(LOCK_INCONSISTENT))
    else After(report, EnterRound(env, st1, lockRound, lockProposal, fromWhere))
  }

  /** `handle_new_round` after the lock check: certificate, log record, and the proposal step. */
  function EnterRound<T>(env: Env<T>, st: NodeState<T>, lockRound: Option<u64>, lockProposal: Option<Hash>,
                         fromWhere: FromWhere): (o: Outcome<T>)
    requires lockRound.Some? == lockProposal.Some?
    ensures o.st.round == st.round && o.st.height == st.height
    ensures env.proposer(st.authority, st.height, st.round) != Err(ProposalErr(LOCK_INCONSISTENT)) ==>
              o.res != Err(ProposalErr(LOCK_INCONSISTENT))
    ensures o.res.Ok? ==>
              |o.effects| > 0 && o.effects[0].SaveWal? &&
              o.effects[0].info.height == st.height && o.effects[0].info.round == st.round &&
              o.effects[0].info.step == Propose && o.effects[0].info.from == o.st.updateFromWhere
    ensures SetUpdateFrom(st, fromWhere).Err? ==> o == Failed(st, [], SetUpdateFrom(st, fromWhere).error)
    ensures SetUpdateFrom(st, fromWhere).Ok? ==>
              var st1 := SetUpdateFrom(st, fromWhere).value;
              match SaveWalWithLockRound(st1, Propose, lockRound)
              case Err(e) => o == Failed(st1, [], e)
              case Ok(wal) => o == After([SaveWal(wal)], ProposeStep(env, st1, lockRound, lockProposal))
  {
    match SetUpdateFrom(st, fromWhere)
    case Err(e) => Failed(st, [], e)
    case Ok(st1) =>
      match SaveWalWithLockRound(st1, Propose, lockRound)
      case Err(e) => Failed(st1, [], e)
      case Ok(wal) => After([SaveWal(wal)], ProposeStep(env, st1, lockRound, lockProposal))
  }

  /**
   * `handle_new_round` once the round is logged: the leader proposes, a replica takes up a
   * proposal it cached for this round.
   */
  function ProposeStep<T>(env: Env<T>, st: NodeState<T>, lockRound: Option<u64>, lockProposal: Option<Hash>)
    : (o: Outcome<T>)
    requires lockRound.Some? == lockProposal.Some?
    ensures o.st.round == st.round && o.st.height == st.height && o.st.updateFromWhere == st.updateFromWhere
    ensures env.proposer(st.authority, st.height, st.round) != Err(ProposalErr(LOCK_INCONSISTENT)) ==>
              o.res != Err(ProposalErr(LOCK_INCONSISTENT))
    ensures o.res.Ok? ==>
              && env.proposer(st.authority, st.height, st.round).Ok?
              && o.st.leaderAddress == env.proposer(st.authority, st.height, st.round).value
              && (o.st.isLeader <==> o.st.leaderAddress == st.address)
    ensures o.res.Ok? && !o.st.isLeader ==>
              if Slot(st.height, st.round) in st.proposals
              then o.effects == [HandleProposal(st.proposals[Slot(st.height, st.round)])]
              else o.effects == []
    ensures env.proposer(st.authority, st.height, st.round).Err? ==>
              o == Failed(st, [], env.proposer(st.authority, st.height, st.round).error)
    ensures env.proposer(st.authority, st.height, st.round).Ok? &&
            env.proposer(st.authority, st.height, st.round).value != st.address ==>
              o.res.Ok? && o.st == st.(isLeader := false, leaderAddress := env.proposer(st.authority, st.height, st.round).value)
    ensures env.proposer(st.authority, st.height, st.round).Ok? &&
            env.proposer(st.authority, st.height, st.round).value == st.address ==>
              o == LeaderPropose(env, st.(isLeader := true, leaderAddress := st.address), lockRound, lockProposal)
  {
    match IsProposer(env, st)
    case Err(e) => Failed(st, [], e)
    case Ok((st1, isProposer)) =>
      if !isProposer then
        if Slot(st1.height, st1.round) in st1.proposals
        then Outcome(st1, [HandleProposal(st1.proposals[Slot(st1.height, st1.round)])], Ok(()))
        else Outcome(st1, [], Ok(()))
      else LeaderPropose(env, st1.(isLeader := true), lockRound, lockProposal)
  }

  /**
   * What the leader proposes: without a lock, a fresh block of the current height from the
   * application; with a lock, the locked block it already holds and the prevote certificate of
   * the lock round as its proof of lock.
   */
  function PickBlock<T>(env: Env<T>, st: NodeState<T>, lockRound: Option<u64>, lockProposal: Option<Hash>)
    : (r: Result<(T, Hash, Option<PoLC>), ConsensusError>)
    requires lockRound.Some? == lockProposal.Some?
    ensures lockRound.None? ==>
              match env.getBlock(st.height)
              case Err(e) => r == Err(Other("get block error " + e))
              case Ok((block, hash)) => r == Ok((block, hash, None))
    ensures lockRound.Some? && lockProposal.value !in st.hashWithBlock ==>
              r == Err(ProposalErr(LOST_PROPOSAL_BLOCK))
    ensures lockRound.Some? && lockProposal.value in st.hashWithBlock &&
            GetQcById(st.votes, st.height, lockRound.value, VoteType.Prevote).Err? ==>
              r == Err(ProposalErr(NO_QC_WHEN_PROPOSE))
    ensures lockRound.Some? && r.Ok? ==>
              && r.value.1 == lockProposal.value
              && lockProposal.value in st.hashWithBlock && r.value.0 == st.hashWithBlock[lockProposal.value]
              && r.value.2.Some? && r.value.2.value.lockRound == lockRound.value
              && GetQcById(st.votes, st.height, lockRound.value, VoteType.Prevote) == Ok(r.value.2.value.lockVotes)
  {
    match lockRound
    case None =>
      (match env.getBlock(st.height)
       case Err(e) => Err(Other("get block error " + e))
       case Ok((block, hash)) => Ok((block, hash, None)))
    case Some(round) =>
      var hash := lockProposal.value;
      if hash !in st.hashWithBlock then Err(ProposalErr(LOST_PROPOSAL_BLOCK))
      else
        match GetQcById(st.votes, st.height, round, VoteType.Prevote)
        case Err(_) => Err(ProposalErr(NO_QC_WHEN_PROPOSE))
        case Ok(qc) => Ok((st.hashWithBlock[hash], hash, Some(PoLC(round, qc))))
  }

  /**
   * The leader's half of `handle_new_round`: the picked block is kept under its hash, the
   * proposal is signed and broadcast, the state machine is triggered and the block is sent to
   * be checked.
   */
  function LeaderPropose<T>(env: Env<T>, st: NodeState<T>, lockRound: Option<u64>, lockProposal: Option<Hash>)
    : (o: Outcome<T>)
    requires lockRound.Some? == lockProposal.Some?
    ensures o.st.height == st.height && o.st.round == st.round && o.st.updateFromWhere == st.updateFromWhere
    ensures o.st.isLeader == st.isLeader && o.st.leaderAddress == st.leaderAddress
    ensures o.res != Err(ProposalErr(LOCK_INCONSISTENT))
    ensures o.res.Err? ==> o.effects == []
    ensures PickBlock(env, st, lockRound, lockProposal).Err? ==>
              o == Failed(st, [], PickBlock(env, st, lockRound, lockProposal).error)
    ensures PickBlock(env, st, lockRound, lockProposal).Ok? ==>
              var (block, hash, polc) := PickBlock(env, st, lockRound, lockProposal).value;
              var proposal := Proposal(st.height, st.round, block, hash, polc, st.address);
              && hash in o.st.hashWithBlock
              && (env.signProposal(proposal).Err? ==> o.res == Err(CryptoErr(env.signProposal(proposal).error)))
              && (env.signProposal(proposal).Ok? ==>
                    && o.res.Ok?
                    && o.effects == [Broadcast(SignedProposalMsg(SignedProposal(env.signProposal(proposal).value, proposal))),
                                     StateTrigger(ProposalTrigger, hash, lockRound, st.round, st.height, None),
                                     CheckBlock(st.height, st.round, hash, block)])
    ensures o.res.Ok? ==>
              |o.effects| == 3
              && o.effects[0].Broadcast? && o.effects[0].msg.SignedProposalMsg?
              && var p := o.effects[0].msg.signedProposal.proposal;
                 && p.height == st.height && p.round == st.round && p.proposer == st.address
                 && (p.lock.Some? <==> lockRound.Some?)
                 && (lockRound.Some? ==> p.blockHash == lockProposal.value && p.lock.value.lockRound == lockRound.value)
                 && (lockRound.None? ==> env.getBlock(st.height) == Ok((p.content, p.blockHash)))
                 && (lockRound.Some? ==>
                       && GetQcById(st.votes, st.height, lockRound.value, VoteType.Prevote) == Ok(p.lock.value.lockVotes)
                       && p.blockHash in st.hashWithBlock && p.content == st.hashWithBlock[p.blockHash])
                 && o.effects[1] == StateTrigger(ProposalTrigger, p.blockHash, lockRound, st.round, st.height, None)
                 && o.effects[2] == CheckBlock(st.height, st.round, p.blockHash, p.content)
                 && p.blockHash in o.st.hashWithBlock
  {
    match PickBlock(env, st, lockRound, lockProposal)
    case Err(e) => Failed(st, [], e)
    case Ok((block, hash, polc)) =>
      var st1 := if hash in st.hashWithBlock then st else st.(hashWithBlock := st.hashWithBlock[hash := block]);
      var proposal := Proposal(st.height, st.round, block, hash, polc, st.address);
      match env.signProposal(proposal)
      case Err(e) => Failed(st1, [], CryptoErr(e))
      case Ok(signature) =>
        Outcome(st1, [
          Broadcast(SignedProposalMsg(SignedProposal(signature, proposal))),
          StateTrigger(ProposalTrigger, hash, lockRound, st.round, st.height, None),
          CheckBlock(st.height, st.round, hash, block)], Ok(()))
  }

  /**
   * `handle_brake`: only for the current round; the node signs a choke of its height and
   * round, collects and logs it, broadcasts it and checks whether the round has enough chokes.
   */
  function HandleBrake<T>(env: Env<T>, st: NodeState<T>, round: u64, lockRound: Option<u64>): (o: Outcome<T>)
    ensures o.st == st.(chokes := o.st.chokes)
    ensures (o.res.Err? && o.res.error.CorrectnessErr?) <==> round != st.round
    ensures round != st.round ==>
              o == Failed(st, [], CorrectnessErr("SMR round " + Decimal(round) + ", state round " + Decimal(st.round)))
    ensures round == st.round && env.signChoke(HashChoke(st.height, st.round)).Ok? ==>
              SignedChoke(env.signChoke(HashChoke(st.height, st.round)).value,
                          Choke(st.height, st.round, st.updateFromWhere), st.address)
              in RoundChokes(o.st.chokes, st.round)
    ensures round == st.round && env.signChoke(HashChoke(st.height, st.round)).Err? ==>
              o == Failed(st, [], CryptoErr("sign choke error " + env.signChoke(HashChoke(st.height, st.round)).error))
    ensures round == st.round && env.signChoke(HashChoke(st.height, st.round)).Ok? ==>
              var sc := SignedChoke(env.signChoke(HashChoke(st.height, st.round)).value,
                                    Choke(st.height, st.round, st.updateFromWhere), st.address);
              var collected := st.(chokes := InsertChoke(st.chokes, st.round, sc));
              match SaveWalWithLockRound(collected, Brake, lockRound)
              case Err(e) => o == Failed(collected, [], e)
              case Ok(wal) =>
                && |o.effects| >= 2
                && o.effects[0] == SaveWal(wal) && o.effects[1] == Broadcast(SignedChokeMsg(sc))
                && o == After([SaveWal(wal), Broadcast(SignedChokeMsg(sc))], CheckChokeAboveThreshold(env, collected))
  {
    if round != st.round then
      Failed(st, [], CorrectnessErr("SMR round " + Decimal(round) + ", state round " + Decimal(st.round)))
    else
      var choke := Choke(st.height, st.round, st.updateFromWhere);
      match env.signChoke(ChokeToHash(choke))
      case Err(e) => Failed(st, [], CryptoErr("sign choke error " + e))
      case Ok(signature) =>
        var sc := SignedChoke(signature, choke, st.address);
        var st1 := st.(chokes := InsertChoke(st.chokes, st.round, sc));
        match SaveWalWithLockRound(st1, Brake, lockRound)
        case Err(e) => Failed(st1, [], e)
        case Ok(wal) =>
          var checked := CheckChokeAboveThreshold(env, st1);
          Outcome(checked.st, [SaveWal(wal), Broadcast(SignedChokeMsg(sc))] + checked.effects, checked.res)
  }

  const NO_LOCK_IN_COMMIT: string := "no lock in commit step"

  /**
   * `start_with_wal`, given what the log held: a node without consensus power does nothing; a
   * missing record restarts a height above the initial one at its Propose step (`wal_lost`); a
   * record is restored.
   */
  function StartWithWal<T>(env: Env<T>, st: NodeState<T>, wal: Option<WalInfo<T>>): (o: Outcome<T>)
    ensures !st.consensusPower ==> o == Unchanged(st)
    ensures st.consensusPower && wal.None? && st.height == INIT_HEIGHT ==> o == Unchanged(st)
    ensures st.consensusPower && wal.None? && st.height != INIT_HEIGHT ==>
              o == Outcome(st, [StateTrigger(WalInfoTrigger, [], None, st.round, st.height,
                                             Some(SMRBase(st.height, st.round, Propose, None)))], Ok(()))
    ensures st.consensusPower && wal.Some? ==> o == RestoreWal(env, st, wal.value)
  {
    if !st.consensusPower then Unchanged(st)
    else match wal
    case None =>
      if st.height != INIT_HEIGHT then
        Outcome(st, [StateTrigger(WalInfoTrigger, [], None, st.round, st.height,
                                  Some(SMRBase(st.height, st.round, Propose, None)))], Ok(()))
      else Unchanged(st)
    case Some(w) => RestoreWal(env, st, w)
  }

  /**
   * `start_with_wal` with a record: restores height, round, certificate origin and lock, then
   * resumes a commit, or re-brakes a Brake record, and hands the recovered step to the state
   * machine.
   */
  function RestoreWal<T>(env: Env<T>, st: NodeState<T>, w: WalInfo<T>): (o: Outcome<T>)
    ensures o.st.height == w.height && o.st.round == w.round
    ensures o.res.Ok? ==> o.st.updateFromWhere == w.from
    ensures env.proposer(st.authority, w.height, w.round).Err? ==>
              o.res == Err(env.proposer(st.authority, w.height, w.round).error)
    ensures env.proposer(st.authority, w.height, w.round).Ok? && w.step == Step.Commit ==>
              if w.lock.None? then o.res == Err(LoadWalErr(NO_LOCK_IN_COMMIT))
              else o.res.Ok? && o.effects == [HandleCommit(w.lock.value.lockVotes.blockHash)]
    ensures w.step != Step.Commit && o.res.Ok? ==>
              |o.effects| > 0 && o.effects[|o.effects| - 1] ==
              StateTrigger(WalInfoTrigger, [], None, w.round, w.height, Some(IntoSmrBase(w)))
    ensures env.proposer(st.authority, w.height, w.round).Ok? && w.lock.Some? ==>
              var qc := w.lock.value.lockVotes;
              GetQcById(o.st.votes, qc.height, qc.round, qc.voteType) == Ok(qc)
              && qc.blockHash in o.st.hashWithBlock
    ensures env.proposer(st.authority, w.height, w.round).Ok? ==>
              && o.st.leaderAddress == env.proposer(st.authority, w.height, w.round).value
              && (o.st.isLeader <==> env.proposer(st.authority, w.height, w.round).value == st.address)
    ensures w.step == Brake && o.res.Ok? ==>
              && env.signChoke(HashChoke(w.height, w.round)).Ok?
              && SignedChoke(env.signChoke(HashChoke(w.height, w.round)).value,
                             Choke(w.height, w.round, w.from), st.address)
                 in RoundChokes(o.st.chokes, w.round)
              && |o.effects| >= 3 && o.effects[0].SaveWal? && o.effects[0].info.step == Brake
              && (o.effects[0].info.lock.Some? <==> w.lock.Some?)
    ensures env.proposer(st.authority, w.height, w.round).Ok? && w.step != Step.Commit ==>
              RestoreState(env, st, w).Ok? && o == ResumeWal(env, RestoreState(env, st, w).value, w)
  {
    match RestoreState(env, st, w)
    case Err(e) => Failed(st.(height := w.height, round := w.round), [], e)
    case Ok(st2) =>
      if w.step == Step.Commit then
        match w.lock
        case None => Failed(st2, [], LoadWalErr(NO_LOCK_IN_COMMIT))
        case Some(lock) => Outcome(st2, [HandleCommit(lock.lockVotes.blockHash)], Ok(()))
      else ResumeWal(env, st2, w)
  }

  /**
   * The state `start_with_wal` recovers from a record: its height, round and certificate
   * origin, the leader elected for them, and the lock.
   */
  function RestoreState<T>(env: Env<T>, st: NodeState<T>, w: WalInfo<T>): (r: Result<NodeState<T>, ConsensusError>)
    ensures env.proposer(st.authority, w.height, w.round).Err? ==>
              r == Err(env.proposer(st.authority, w.height, w.round).error)
    ensures r.Ok? ==>
              && env.proposer(st.authority, w.height, w.round).Ok?
              && r.value.height == w.height && r.value.round == w.round && r.value.updateFromWhere == w.from
              && r.value.address == st.address && r.value.authority == st.authority
              && r.value.leaderAddress == env.proposer(st.authority, w.height, w.round).value
              && (r.value.isLeader <==> r.value.leaderAddress == st.address)
              && r.value.chokes == st.chokes
    ensures env.proposer(st.authority, w.height, w.round).Ok? ==> r.Ok?
    ensures r.Ok? && w.lock.Some? ==>
              var qc := w.lock.value.lockVotes;
              GetQcById(r.value.votes, qc.height, qc.round, qc.voteType) == Ok(qc)
              && qc.blockHash in r.value.hashWithBlock
  {
    match IsProposer(env, st.(height := w.height, round := w.round))
    case Err(e) => Err(e)
    case Ok((st1, leader)) => Ok(RestoreLock(st1.(isLeader := leader, updateFromWhere := w.from), w.lock))
  }

  /**
   * The end of `start_with_wal` for a record that is not at Commit: a Brake record brakes
   * again, then the state machine resumes from the record.
   */
  function ResumeWal<T>(env: Env<T>, st: NodeState<T>, w: WalInfo<T>): (o: Outcome<T>)
    ensures o.st == st.(chokes := o.st.chokes)
    ensures w.step != Brake ==>
              o == Outcome(st, [StateTrigger(WalInfoTrigger, [], None, w.round, w.height, Some(IntoSmrBase(w)))], Ok(()))
    ensures o.res.Ok? ==>
              |o.effects| > 0 && o.effects[|o.effects| - 1] ==
              StateTrigger(WalInfoTrigger, [], None, w.round, w.height, Some(IntoSmrBase(w)))
    ensures w.step == Brake ==>
              var braked := HandleBrake(env, st, st.round, if w.lock.Some? then Some(w.lock.value.lockRound) else None);
              && (braked.res.Err? ==> o == braked)
              && (braked.res.Ok? ==>
                    o == Outcome(braked.st, braked.effects +
                                 [StateTrigger(WalInfoTrigger, [], None, w.round, w.height, Some(IntoSmrBase(w)))], Ok(())))
    ensures w.step == Brake && o.res.Ok? ==>
              && env.signChoke(HashChoke(st.height, st.round)).Ok?
              && SignedChoke(env.signChoke(HashChoke(st.height, st.round)).value,
                             Choke(st.height, st.round, st.updateFromWhere), st.address)
                 in RoundChokes(o.st.chokes, st.round)
              && |o.effects| >= 3 && o.effects[0].SaveWal? && o.effects[0].info.step == Brake
              && o.effects[0].info.height == st.height && o.effects[0].info.round == st.round
              && (o.effects[0].info.lock.Some? <==> w.lock.Some?)
  {
    var resumed := StateTrigger(WalInfoTrigger, [], None, w.round, w.height, Some(IntoSmrBase(w)));
    if w.step == Brake then
      var braked := HandleBrake(env, st, st.round, if w.lock.Some? then Some(w.lock.value.lockRound) else None);
      if braked.res.Err? then braked
      else Outcome(braked.st, braked.effects + [resumed], Ok(()))
    else Outcome(st, [resumed], Ok(()))
  }

  /** The lock part of `start_with_wal`: the locked prevote certificate and its block. */
  function RestoreLock<T>(st: NodeState<T>, lock: Option<WalLock<T>>): (st': NodeState<T>)
    ensures lock.None? ==> st' == st
    ensures lock.Some? ==>
              && st' == st.(votes := SetQc(st.votes, lock.value.lockVotes),
                            hashWithBlock := st.hashWithBlock[lock.value.lockVotes.blockHash := lock.value.content])
              && GetQcById(st'.votes, lock.value.lockVotes.height, lock.value.lockVotes.round,
                           lock.value.lockVotes.voteType) == Ok(lock.value.lockVotes)
  {
    match lock
    case None => st
    case Some(l) =>
      st.(votes := SetQc(st.votes, l.lockVotes),
          hashWithBlock := st.hashWithBlock[l.lockVotes.blockHash := l.content])
  }

  // ---------------------------------------------------------------------------------------
  // Signed votes

  /**
   * `handle_signed_vote`: a vote outside the window is ignored and one from a non-authority is
   * refused. A vote whose certificate already exists is not stored; any other is stored, but
   * counted only when it is not for a later height. Counting happens at the current height and
   * round; a hash with a quorum gets a certificate, which is stored, broadcast and, once its
   * block is checked, triggers the state machine.
   */
  method HandleSignedVote<T>(env: Env<T>, st: NodeState<T>, sv: SignedVote) returns (o: Outcome<T>)
    ensures FilterMessage(st.height, st.round, sv.vote.height, sv.vote.round) ==> o == Unchanged(st)
    ensures !FilterMessage(st.height, st.round, sv.vote.height, sv.vote.round) && !IsAuthority(st.authority, sv.voter) ==>
              o == Failed(st, [], InvalidAddress)
    ensures GetQcById(st.votes, sv.vote.height, sv.vote.round, sv.vote.voteType).Ok? && IsAuthority(st.authority, sv.voter) ==>
              o == Unchanged(st)
    ensures o.res.Err? ==> o.effects == []
    ensures o.st.height == st.height && o.st.round == st.round
    ensures !FilterMessage(st.height, st.round, sv.vote.height, sv.vote.round) && IsAuthority(st.authority, sv.voter)
            && GetQcById(st.votes, sv.vote.height, sv.vote.round, sv.vote.voteType).Err? ==>
              o.st.votes.votes == InsertVote(st.votes, sv.vote.blockHash, sv, sv.voter).votes
    ensures !FilterMessage(st.height, st.round, sv.vote.height, sv.vote.round) && IsAuthority(st.authority, sv.voter)
            && GetQcById(st.votes, sv.vote.height, sv.vote.round, sv.vote.voteType).Err?
            && sv.vote.height > st.height ==>
              o == Unchanged(st.(votes := InsertVote(st.votes, sv.vote.blockHash, sv, sv.voter)))
    ensures o.effects != [] ==>
              && o.effects[0].Broadcast? && o.effects[0].msg.AggregatedVoteMsg?
              && var qc := o.effects[0].msg.aggregatedVote;
                 && qc.height == st.height && qc.round == st.round && qc.voteType == sv.vote.voteType
                 && GetQcById(o.st.votes, st.height, st.round, sv.vote.voteType) == Ok(qc)
                 && GetVoteMap(o.st.votes, st.height, st.round, sv.vote.voteType).Ok?
                 && qc.blockHash in GetVoteMap(o.st.votes, st.height, st.round, sv.vote.voteType).value
                 && AboveThreshold(st.authority, GetVoteMap(o.st.votes, st.height, st.round, sv.vote.voteType).value[qc.blockHash])
                 && |o.effects| <= 2
                 && (|o.effects| == 2 <==> TryGetFullTxs(o.st, qc.blockHash))
                 && (|o.effects| == 2 ==>
                       o.effects[1] == StateTrigger(VoteTypeToTrigger(sv.vote.voteType), qc.blockHash, None,
                                                    st.round, st.height, None))
    ensures !FilterMessage(st.height, st.round, sv.vote.height, sv.vote.round) && IsAuthority(st.authority, sv.voter)
            && GetQcById(st.votes, sv.vote.height, sv.vote.round, sv.vote.voteType).Err?
            && sv.vote.height <= st.height && o.res.Ok? ==>
              var counted := GetVoteMap(InsertVote(st.votes, sv.vote.blockHash, sv, sv.voter),
                                        st.height, st.round, sv.vote.voteType);
              && counted.Ok?
              && (o.effects != [] <==> exists h :: h in counted.value && AboveThreshold(st.authority, counted.value[h]))
    ensures !FilterMessage(st.height, st.round, sv.vote.height, sv.vote.round) && IsAuthority(st.authority, sv.voter)
            && GetQcById(st.votes, sv.vote.height, sv.vote.round, sv.vote.voteType).Err?
            && sv.vote.height <= st.height && o.res.Err? ==>
              var counted := GetVoteMap(InsertVote(st.votes, sv.vote.blockHash, sv, sv.voter),
                                        st.height, st.round, sv.vote.voteType);
              || (counted.Err? && o.res == Err(counted.error))
              || (counted.Ok? && o.res == Err(InvalidAddress)
                  && exists h, a :: h in counted.value && a in counted.value[h] && !IsAuthority(st.authority, a))
              || (counted.Ok? && o.res.error.CryptoErr?
                  && exists h :: h in counted.value && AboveThreshold(st.authority, counted.value[h]))
  {
    var height := sv.vote.height;
    var round := sv.vote.round;
    var voteType := sv.vote.voteType;
    if FilterMessage(st.height, st.round, height, round) {
      return Unchanged(st);
    }
    if !IsAuthority(st.authority, sv.voter) {
      return Failed(st, [], InvalidAddress);
    }
    if GetQcById(st.votes, height, round, voteType).Ok? {
      return Unchanged(st);
    }
    var st1 := st.(votes := InsertVote(st.votes, sv.vote.blockHash, sv, sv.voter));
    if height > st.height {
      return Unchanged(st1);
    }
    o := CountVotes(env, st1, voteType);
  }

  /**
   * The counting half of `handle_signed_vote`: the votes of the current height, round and type
   * are counted; a hash with a quorum gets a certificate, which is stored and broadcast and,
   * once its block is checked, triggers the state machine.
   */
  method CountVotes<T>(env: Env<T>, st: NodeState<T>, voteType: VoteType) returns (o: Outcome<T>)
    ensures o.res.Err? ==> o.effects == []
    ensures o.st.height == st.height && o.st.round == st.round && o.st.votes.votes == st.votes.votes
    ensures o.res.Ok? && o.effects == [] ==> o.st == st
    ensures o.effects != [] ==>
              && o.effects[0].Broadcast? && o.effects[0].msg.AggregatedVoteMsg?
              && var qc := o.effects[0].msg.aggregatedVote;
                 && qc.height == st.height && qc.round == st.round && qc.voteType == voteType
                 && GetQcById(o.st.votes, st.height, st.round, voteType) == Ok(qc)
                 && GetVoteMap(o.st.votes, st.height, st.round, voteType).Ok?
                 && qc.blockHash in GetVoteMap(o.st.votes, st.height, st.round, voteType).value
                 && AboveThreshold(st.authority, GetVoteMap(o.st.votes, st.height, st.round, voteType).value[qc.blockHash])
                 && |o.effects| <= 2
                 && (|o.effects| == 2 <==> TryGetFullTxs(o.st, qc.blockHash))
                 && (|o.effects| == 2 ==>
                       o.effects[1] == StateTrigger(VoteTypeToTrigger(voteType), qc.blockHash, None,
                                                    st.round, st.height, None))
    ensures o.res.Ok? ==>
              var counted := GetVoteMap(st.votes, st.height, st.round, voteType);
              && counted.Ok?
              && (o.effects != [] <==> exists h :: h in counted.value && AboveThreshold(st.authority, counted.value[h]))
    ensures o.res.Err? ==>
              var counted := GetVoteMap(st.votes, st.height, st.round, voteType);
              || (counted.Err? && o.res == Err(counted.error))
              || (counted.Ok? && o.res == Err(InvalidAddress)
                  && exists h, a :: h in counted.value && a in counted.value[h] && !IsAuthority(st.authority, a))
              || (counted.Ok? && o.res.error.CryptoErr?
                  && exists h :: h in counted.value && AboveThreshold(st.authority, counted.value[h]))
  {
    var st1 := st;
    var voteMap := GetVoteMap(st1.votes, st.height, st.round, voteType);
    if voteMap.Err? {
      return Failed(st1, [], voteMap.error);
    }
    var counted := CountingVote(voteMap.value, st.authority);
    if counted.Err? {
      return Failed(st1, [], counted.error);
    }
    if counted.value.None? {
      return Unchanged(st1);
    }
    var blockHash := counted.value.value;
    o := CertifyHash(env, st1, voteType, blockHash);
  }

  /**
   * The certificate half of `handle_signed_vote`, for a hash that reached the quorum: the
   * certificate is aggregated from that hash's votes, stored and broadcast; once the block is
   * checked the state machine is triggered as well. A failed aggregation leaves everything as it was.
   */
  method CertifyHash<T>(env: Env<T>, st: NodeState<T>, voteType: VoteType, blockHash: Hash) returns (o: Outcome<T>)
    ensures o.st.height == st.height && o.st.round == st.round && o.st.votes.votes == st.votes.votes
    ensures GetVotes(st.votes, st.height, st.round, voteType, blockHash).Err? ==>
              o == Failed(st, [], GetVotes(st.votes, st.height, st.round, voteType, blockHash).error)
    ensures GetVotes(st.votes, st.height, st.round, voteType, blockHash).Ok? && o.res.Err? ==>
              o.st == st && o.effects == [] && o.res.error.CryptoErr?
    ensures o.res.Ok? ==>
              && |o.effects| >= 1 && o.effects[0].Broadcast? && o.effects[0].msg.AggregatedVoteMsg?
              && var qc := o.effects[0].msg.aggregatedVote;
                 && qc.height == st.height && qc.round == st.round && qc.voteType == voteType
                 && qc.blockHash == blockHash && qc.leader == st.address
                 && GetQcById(o.st.votes, st.height, st.round, voteType) == Ok(qc)
                 && |o.effects| <= 2
                 && (|o.effects| == 2 <==> TryGetFullTxs(o.st, blockHash))
                 && (|o.effects| == 2 ==>
                       o.effects[1] == StateTrigger(VoteTypeToTrigger(voteType), blockHash, None,
                                                    st.round, st.height, None))
  {
    var generated := GenerateQc(st.votes, st.authority, st.height, st.round, voteType, blockHash, st.address, env.aggregate);
    if generated.Err? {
      return Failed(st, [], generated.error);
    }
    var qc := generated.value;
    var st2 := st.(votes := SetQc(st.votes, qc));
    var broadcast := Broadcast(AggregatedVoteMsg(qc));
    if !TryGetFullTxs(st2, blockHash) {
      return Outcome(st2, [broadcast], Ok(()));
    }
    return Outcome(st2, [broadcast, StateTrigger(VoteTypeToTrigger(voteType), blockHash, None, qc.round, qc.height, None)], Ok(()));
  }
}

=== FILE: quorum.dfy ===
/**
 * Quorum rules of the State layer: the weighted two-thirds count over a vote map
 * (`counting_vote`) and the assembly of a quorum certificate with its address bitmap
 * (`generate_qc`).
 */
module Quorum {
  import opened Wrappers
  import opened Primitives
  import opened Errors
  import opened Types
  import opened Collectors

  // ---------------------------------------------------------------------------------------
  // Weighted count

  /** The total vote weight of a set of voters; a voter outside the authority list weighs 0. */
  ghost function SumWeights(authority: seq<Node>, voters: set<Address>): nat
    decreases voters
  {
    if voters == {} then 0
    else
      var a :| a in voters;
      WeightOf(authority, a) + SumWeights(authority, voters - {a})
  }

  /** The sum does not depend on the order in which voters are taken out. */
  lemma {:induction false} SumWeightsRemove(authority: seq<Node>, voters: set<Address>, a: Address)
    requires a in voters
    ensures SumWeights(authority, voters) == WeightOf(authority, a) + SumWeights(authority, voters - {a})
    decreases voters
  {
    var b :| b in voters && SumWeights(authority, voters)
                            == WeightOf(authority, b) + SumWeights(authority, voters - {b});
    if a != b {
      SumWeightsRemove(authority, voters - {b}, a);
      SumWeightsRemove(authority, voters - {a}, b);
      assert voters - {b} - {a} == voters - {a} - {b};
    }
  }

  /** A hash has a quorum when its voters hold strictly more than two thirds of the weight. */
  ghost predicate AboveThreshold(authority: seq<Node>, voters: set<Address>) {
    3 * SumWeights(authority, voters) > 2 * TotalVoteWeight(authority)
  }

  /**
   * `counting_vote` over the vote map of the current (height, round, type): some hash whose
   * voters' weight is above two thirds of the total, or none. The map is visited in an
   * unspecified order, so when several hashes qualify any of them may be returned. A voter
   * outside the authority list stops the count with the weight lookup's error.
   */
  method CountingVote(voteMap: map<Hash, set<Address>>, authority: seq<Node>)
    returns (r: Result<Option<Hash>, ConsensusError>)
    ensures r.Ok? && r.value.Some? ==>
              r.value.value in voteMap && AboveThreshold(authority, voteMap[r.value.value])
    ensures r.Ok? && r.value.None? ==>
              forall h :: h in voteMap ==> !AboveThreshold(authority, voteMap[h])
    ensures r.Ok? && r.value.None? ==>
              forall h, a :: h in voteMap && a in voteMap[h] ==> IsAuthority(authority, a)
    ensures r.Err? ==> r.error == InvalidAddress
    ensures r.Err? ==> exists h, a :: h in voteMap && a in voteMap[h] && !IsAuthority(authority, a)
  {
    var threshold := TotalVoteWeight(authority) * 2;
    var remaining := voteMap.Keys;
    while remaining != {}
      invariant remaining <= voteMap.Keys
      invariant forall h :: h in voteMap && h !in remaining ==> !AboveThreshold(authority, voteMap[h])
      invariant forall h, a :: h in voteMap && h !in remaining && a in voteMap[h] ==> IsAuthority(authority, a)
      decreases remaining
    {
      var hash :| hash in remaining;
      var voters := voteMap[hash];
      var acc := 0;
      var left := voters;
      while left != {}
        invariant left <= voters
        invariant acc + SumWeights(authority, left) == SumWeights(authority, voters)
        invariant forall a :: a in voters && a !in left ==> IsAuthority(authority, a)
        decreases left
      {
        var a :| a in left;
        var w := VoteWeight(authority, a);
        if w.Err? {
          assert hash in voteMap && a in voteMap[hash] && !IsAuthority(authority, a);
          return Err(w.error);
        }
        SumWeightsRemove(authority, left, a);
        acc := acc + w.value;
        left := left - {a};
      }
      if acc * 3 > threshold {
        return Ok(Some(hash));
      }
      remaining := remaining - {hash};
    }
    return Ok(None);
  }

  // ---------------------------------------------------------------------------------------
  // Votes in voter order (`votes.sort()` with `Ord for SignedVote`)

  predicate VoterLessEq(a: SignedVote, b: SignedVote) {
    CompareSignedVotes(a, b) != Greater
  }

  /** Each vote is ordered at most its successor by voter. */
  predicate SortedByVoter(s: seq<SignedVote>) {
    forall i :: 0 < i < |s| ==> VoterLessEq(s[i - 1], s[i])
  }

  /** Insertion of one vote into a list sorted by voter. */
  function InsertByVoter(s: seq<SignedVote>, v: SignedVote): (r: seq<SignedVote>)
    requires SortedByVoter(s)
    ensures SortedByVoter(r)
    ensures multiset(r) == multiset(s) + multiset{v}
    ensures |r| > 0 && (r[0] == v || (|s| > 0 && r[0] == s[0]))
  {
    if |s| == 0 then [v]
    else if VoterLessEq(v, s[0]) then [v] + s
    else
      CompareBytesFlip(v.voter, s[0].voter);
      var tail := InsertByVoter(s[1..], v);
      assert s == [s[0]] + s[1..];
      [s[0]] + tail
  }

  // ---------------------------------------------------------------------------------------
  // Address bitmap (`BitVec::from_elem` then `to_bytes`: bit i is bit 7 - i % 8 of byte i / 8)

  /** The byte whose bits, most significant first, are the eight flags of `p`. */
  function PackByte(p: seq<bool>): (b: byte)
    requires |p| == 8
  {
    (if p[0] then 128 else 0) + (if p[1] then 64 else 0) + (if p[2] then 32 else 0)
    + (if p[3] then 16 else 0) + (if p[4] then 8 else 0) + (if p[5] then 4 else 0)
    + (if p[6] then 2 else 0) + (if p[7] then 1 else 0)
  }

  /** A byte shifted left by one bit, the top bit falling off. */
  function ShiftLeft(b: byte): byte {
    if b >= 128 then 2 * b - 256 else 2 * b
  }

  /** Bit `k` of a byte, counted from the most significant. */
  function ByteBit(b: byte, k: nat): bool
    requires k < 8
    decreases k
  {
    if k == 0 then b >= 128 else ByteBit(ShiftLeft(b), k - 1)
  }

  lemma {:induction false} PackByteBits(p: seq<bool>, k: nat)
    requires |p| == 8 && k < 8
    ensures ByteBit(PackByte(p), k) == p[k]
    decreases k
  {
    if k > 0 {
      var q := p[1..] + [false];
      assert ShiftLeft(PackByte(p)) == PackByte(q);
      PackByteBits(q, k - 1);
    }
  }

  /** A list of flags padded with `false` to a whole number of bytes. */
  function Pad(bits: seq<bool>): (p: seq<bool>)
    ensures |p| % 8 == 0 && |bits| <= |p| < |bits| + 8
    ensures p[..|bits|] == bits
    ensures forall i :: |bits| <= i < |p| ==> !p[i]
  {
    var extra := (8 - |bits| % 8) % 8;
    bits + seq(extra, _ => false)
  }

  function PackBytes(p: seq<bool>): (bytes: seq<byte>)
    requires |p| % 8 == 0
    ensures |bytes| == |p| / 8
    decreases |p|
  {
    if |p| == 0 then [] else [PackByte(p[..8])] + PackBytes(p[8..])
  }

  /** `BitVec::to_bytes`. */
  function PackBits(bits: seq<bool>): (bytes: seq<byte>)
    ensures |bytes| == (|bits| + 7) / 8
  {
    PackBytes(Pad(bits))
  }

  /** Flag `i` of a packed bitmap. */
  function BitAt(bytes: seq<byte>, i: nat): bool
    requires i < 8 * |bytes|
  {
    ByteBit(bytes[i / 8], i % 8)
  }

  lemma {:induction false} PackBytesBits(p: seq<bool>, i: nat)
    requires |p| % 8 == 0 && i < |p|
    ensures BitAt(PackBytes(p), i) == p[i]
    decreases |p|
  {
    if i < 8 {
      PackByteBits(p[..8], i);
    } else {
      PackBytesBits(p[8..], i - 8);
      assert (i - 8) / 8 == i / 8 - 1 && (i - 8) % 8 == i % 8;
    }
  }

  /** Every flag is read back from its position, and the padding bits are clear. */
  lemma PackBitsRoundTrip(bits: seq<bool>, i: nat)
    requires i < 8 * |PackBits(bits)|
    ensures i < |bits| ==> BitAt(PackBits(bits), i) == bits[i]
    ensures i >= |bits| ==> !BitAt(PackBits(bits), i)
  {
    var p := Pad(bits);
    PackBytesBits(p, i);
    if i < |bits| {
      assert p[..|bits|][i] == bits[i];
    }
  }

  // ---------------------------------------------------------------------------------------
  // Quorum certificate

  /** The voters named by a set of signed votes. */
  function VoterSet(votes: map<Address, SignedVote>): set<Address> {
    set a | a in votes :: votes[a].voter
  }

  /** The authority list's membership flags for a set of voters, in list order. */
  function VoterFlags(authority: seq<Node>, voters: set<Address>): (bits: seq<bool>)
    ensures |bits| == |authority|
    ensures forall i :: 0 <= i < |authority| ==> (bits[i] <==> authority[i].address in voters)
  {
    seq(|authority|, i requires 0 <= i < |authority| => authority[i].address in voters)
  }

  function Signatures(s: seq<SignedVote>): (r: seq<Signature>)
    ensures |r| == |s| && forall i :: 0 <= i < |s| ==> r[i] == s[i].signature
  {
    seq(|s|, i requires 0 <= i < |s| => s[i].signature)
  }

  function Voters(s: seq<SignedVote>): (r: seq<Address>)
    ensures |r| == |s| && forall i :: 0 <= i < |s| ==> r[i] == s[i].voter
  {
    seq(|s|, i requires 0 <= i < |s| => s[i].voter)
  }

  /** The signature aggregation of the crypto provider; an error is rendered as a string. */
  type Aggregator = (seq<Signature>, seq<Address>) -> Result<Signature, string>

  /**
   * `generate_qc`: the signed votes for `blockHash` sorted by voter, their signatures
   * aggregated, and bit i of the bitmap set exactly when the i-th authority voted.
   */
  method GenerateQc(c: VoteCollector, authority: seq<Node>, height: u64, round: u64, t: VoteType,
                    blockHash: Hash, leader: Address, aggregate: Aggregator)
    returns (r: Result<AggregatedVote, ConsensusError>)
    ensures GetVotes(c, height, round, t, blockHash).Err? ==> r == Err(GetVotes(c, height, round, t, blockHash).error)
    ensures r.Err? && GetVotes(c, height, round, t, blockHash).Ok? ==> r.error.CryptoErr?
    ensures r.Ok? ==> r.value.voteType == t && r.value.height == height && r.value.round == round
    ensures r.Ok? ==> r.value.blockHash == blockHash && r.value.leader == leader
    ensures r.Ok? ==> r.value.signature.addressBitmap
                      == PackBits(VoterFlags(authority, VoterSet(GetVotes(c, height, round, t, blockHash).value)))
    ensures r.Ok? ==> exists s :: SortedByVoter(s) && |s| == |GetVotes(c, height, round, t, blockHash).value|
                        && (forall a :: a in GetVotes(c, height, round, t, blockHash).value
                              ==> GetVotes(c, height, round, t, blockHash).value[a] in s)
                        && aggregate(Signatures(s), Voters(s)) == Ok(r.value.signature.signature)
    ensures r.Err? && GetVotes(c, height, round, t, blockHash).Ok? ==>
              exists s :: SortedByVoter(s) && |s| == |GetVotes(c, height, round, t, blockHash).value|
                && (forall a :: a in GetVotes(c, height, round, t, blockHash).value
                      ==> GetVotes(c, height, round, t, blockHash).value[a] in s)
                && aggregate(Signatures(s), Voters(s)).Err?
                && r == Err(CryptoErr(aggregate(Signatures(s), Voters(s)).error))
  {
    var got := GetVotes(c, height, round, t, blockHash);
    if got.Err? {
      return Err(got.error);
    }
    var votes := got.value;
    var sorted := SortVotes(votes);
    var voters := Voters(sorted);
    var voterSet := set i | 0 <= i < |voters| :: voters[i];
    var bitmap := PackBits(VoterFlags(authority, voterSet));
    var signature := aggregate(Signatures(sorted), voters);
    if signature.Err? {
      return Err(CryptoErr(signature.error));
    }
    return Ok(AggregatedVote(AggregatedSignature(signature.value, bitmap), t, height, round, blockHash, leader));
  }

  /**
   * The ordering `generate_qc` puts the collected votes in before aggregating: every vote once,
   * sorted by voter address, so that the voters of the sorted list are exactly the vote set's.
   */
  method SortVotes(votes: map<Address, SignedVote>) returns (sorted: seq<SignedVote>)
    ensures SortedByVoter(sorted) && |sorted| == |votes|
    ensures forall a :: a in votes ==> votes[a] in sorted
    ensures forall v :: v in sorted ==> exists a :: a in votes && votes[a] == v
    ensures (set i | 0 <= i < |Voters(sorted)| :: Voters(sorted)[i]) == VoterSet(votes)
  {
    sorted := [];
    var left := votes.Keys;
    while left != {}
      invariant left <= votes.Keys
      invariant SortedByVoter(sorted)
      invariant |sorted| + |left| == |votes.Keys|
      invariant forall a :: a in votes && a !in left ==> votes[a] in sorted
      invariant forall v :: v in sorted ==> exists a :: a in votes && a !in left && votes[a] == v
      decreases left
    {
      var a :| a in left;
      var prev := sorted;
      sorted := InsertByVoter(sorted, votes[a]);
      assert |multiset(sorted)| == |multiset(prev)| + 1;
      forall v
        ensures v in sorted <==> v in prev || v == votes[a]
      {
        assert v in sorted <==> v in multiset(sorted);
        assert v in prev <==> v in multiset(prev);
      }
      left := left - {a};
    }
    var voters := Voters(sorted);
    var voterSet := set i | 0 <= i < |voters| :: voters[i];
    forall x | x in VoterSet(votes)
      ensures x in voterSet
    {
      var a :| a in votes && votes[a].voter == x;
      var i :| 0 <= i < |sorted| && sorted[i] == votes[a];
      assert voters[i] == x;
    }
    forall x | x in voterSet
      ensures x in VoterSet(votes)
    {
      var i :| 0 <= i < |voters| && voters[i] == x;
      assert sorted[i] in sorted;
      var a :| a in votes && votes[a] == sorted[i];
    }
  }
}

=== FILE: rlp.dfy ===
/**
 * Recursive Length Prefix (Ethereum Yellow Paper, Appendix B) at the level of the item tree:
 * an item is a byte string or a list of items. Scalars are big-endian byte strings without
 * leading zeros; a struct is a list of its fields. Decoders read a field from the front of a
 * list payload and return what is left; items left over after the last field are ignored.
 */
module Rlp {
  import opened Wrappers
  import opened Primitives

  datatype Item = RlpString(bytes: seq<byte>) | RlpList(items: seq<Item>)

  datatype DecodeError =
    | Overflow
    | LeadingZero
    | InputTooShort
    | UnexpectedString
    | UnexpectedList
    | Custom(message: string)
    | Panicked(message: string)

  /** The value read and the items that follow it. */
  type Decoded<V> = Result<(V, seq<Item>), DecodeError>

  function Pow256(k: nat): (p: nat)
    ensures p > 0
  {
    if k == 0 then 1 else 256 * Pow256(k - 1)
  }

  /** The number a big-endian byte string denotes. */
  function BeValue(b: seq<byte>): nat {
    if |b| == 0 then 0 else BeValue(b[..|b| - 1]) * 256 + b[|b| - 1]
  }

  /** A byte string of length k denotes a number below 256^k. */
  lemma {:induction false} BeValueBound(b: seq<byte>)
    ensures BeValue(b) < Pow256(|b|)
  {
    if |b| > 0 {
      BeValueBound(b[..|b| - 1]);
    }
  }

  /** The shortest big-endian byte string of `n`: empty for zero, no leading zero byte. */
  function BigEndian(n: nat): (b: seq<byte>)
    ensures |b| == 0 <==> n == 0
    ensures |b| > 0 ==> b[0] != 0
    ensures BeValue(b) == n
  {
    if n == 0 then []
    else
      var prefix := BigEndian(n / 256);
      var b := prefix + [n % 256];
      assert b[..|b| - 1] == prefix;
      b
  }

  /** A number below 256^k needs at most k bytes. */
  lemma {:induction false} BigEndianLength(n: nat, k: nat)
    requires n < Pow256(k)
    ensures |BigEndian(n)| <= k
  {
    if n > 0 {
      assert k > 0;
      assert n / 256 < Pow256(k - 1);
      BigEndianLength(n / 256, k - 1);
    }
  }

  lemma U64Width()
    ensures Pow256(8) == U64_LIMIT
  {
  }

  function EncodeUint(n: nat): Item {
    RlpString(BigEndian(n))
  }

  function EncodeBool(b: bool): Item {
    EncodeUint(if b then 1 else 0)
  }

  function EncodeBytes(b: Bytes): Item {
    RlpString(b)
  }

  /** An unsigned integer of at most `width` bytes, read from one item. */
  function DecodeUintItem(item: Item, width: nat): (r: Result<nat, DecodeError>)
    ensures r.Ok? <==> item.RlpString? && |item.bytes| <= width
                       && (|item.bytes| == 0 || item.bytes[0] != 0)
    ensures r.Ok? ==> r.value < Pow256(width) && BigEndian(r.value) == item.bytes
  {
    match item
    case RlpList(_) => Err(UnexpectedList)
    case RlpString(b) =>
      if |b| > width then Err(Overflow)
      else if |b| > 0 && b[0] == 0 then Err(LeadingZero)
      else
        BeValueBound(b);
        PowMonotone(|b|, width);
        CanonicalBigEndian(b);
        Ok(BeValue(b))
  }

  lemma {:induction false} PowMonotone(i: nat, j: nat)
    requires i <= j
    ensures Pow256(i) <= Pow256(j)
  {
    if i < j {
      PowMonotone(i, j - 1);
    }
  }

  /** A byte string without a leading zero is the shortest encoding of its value. */
  lemma {:induction false} CanonicalBigEndian(b: seq<byte>)
    requires |b| == 0 || b[0] != 0
    ensures BigEndian(BeValue(b)) == b
  {
    if |b| > 0 {
      var prefix := b[..|b| - 1];
      CanonicalBigEndian(prefix);
      if |prefix| > 0 {
        assert BeValue(prefix) > 0 by { BigEndianNonZero(prefix); }
      }
      assert BeValue(b) / 256 == BeValue(prefix);
      assert BeValue(b) % 256 == b[|b| - 1];
    }
  }

  lemma BigEndianNonZero(b: seq<byte>)
    requires |b| > 0 && b[0] != 0
    requires BigEndian(BeValue(b)) == b
    ensures BeValue(b) > 0
  {
  }

  function DecodeU64(items: seq<Item>): (r: Decoded<u64>)
    ensures r.Ok? ==> |items| > 0 && r.value.1 == items[1..]
  {
    if |items| == 0 then Err(InputTooShort)
    else
      U64Width();
      var v :- DecodeUintItem(items[0], 8);
      Ok((v, items[1..]))
  }

  function DecodeU8(items: seq<Item>): (r: Decoded<byte>)
    ensures r.Ok? ==> |items| > 0 && r.value.1 == items[1..]
  {
    if |items| == 0 then Err(InputTooShort)
    else
      var v :- DecodeUintItem(items[0], 1);
      Ok((v, items[1..]))
  }

  const INVALID_BOOL: string := "invalid bool value, must be 0 or 1"

  /** A bool is the byte 0 or 1; any other byte is an error. */
  function DecodeBool(items: seq<Item>): (r: Decoded<bool>)
    ensures r.Ok? ==> |items| > 0 && r.value.1 == items[1..]
  {
    var p :- DecodeU8(items);
    if p.0 == 0 then Ok((false, p.1))
    else if p.0 == 1 then Ok((true, p.1))
    else Err(Custom(INVALID_BOOL))
  }

  function DecodeBytes(items: seq<Item>): (r: Decoded<Bytes>)
    ensures r.Ok? ==> |items| > 0 && r.value.1 == items[1..]
  {
    if |items| == 0 then Err(InputTooShort)
    else
      match items[0]
      case RlpList(_) => Err(UnexpectedList)
      case RlpString(b) => Ok((b, items[1..]))
  }

  /** The payload of a list item (`Header::decode_bytes(buf, true)`). */
  function DecodeList(items: seq<Item>): (r: Decoded<seq<Item>>)
    ensures r.Ok? ==> |items| > 0 && r.value.1 == items[1..]
  {
    if |items| == 0 then Err(InputTooShort)
    else
      match items[0]
      case RlpString(_) => Err(UnexpectedString)
      case RlpList(payload) => Ok((payload, items[1..]))
  }

  /** A 64-bit unsigned integer decodes back to itself; the stream advances by one item. */
  lemma U64RoundTrip(n: u64, items: seq<Item>)
    requires |items| > 0 && items[0] == EncodeUint(n)
    ensures DecodeU64(items) == Ok((n, items[1..]))
  {
    U64Width();
    BigEndianLength(n, 8);
  }

  /** A byte decodes back to itself. */
  lemma U8RoundTrip(n: byte, items: seq<Item>)
    requires |items| > 0 && items[0] == EncodeUint(n)
    ensures DecodeU8(items) == Ok((n, items[1..]))
  {
    BigEndianLength(n, 1);
  }

  /** A bool decodes back to itself. */
  lemma BoolRoundTrip(b: bool, items: seq<Item>)
    requires |items| > 0 && items[0] == EncodeBool(b)
    ensures DecodeBool(items) == Ok((b, items[1..]))
  {
    U8RoundTrip(if b then 1 else 0, items);
  }

  /** A byte value other than 0 and 1 is not a bool. */
  lemma BoolRejects(n: byte, items: seq<Item>)
    requires n > 1
    requires |items| > 0 && items[0] == EncodeUint(n)
    ensures DecodeBool(items) == Err(Custom(INVALID_BOOL))
  {
    U8RoundTrip(n, items);
  }

  /** A byte string decodes back to itself. */
  lemma BytesRoundTrip(b: Bytes, items: seq<Item>)
    requires |items| > 0 && items[0] == EncodeBytes(b)
    ensures DecodeBytes(items) == Ok((b, items[1..]))
  {
  }

  /** An integer wider than 64 bits is refused with `Overflow`. */
  lemma U64RejectsWide(n: nat, items: seq<Item>)
    requires n >= U64_LIMIT
    requires |items| > 0 && items[0] == EncodeUint(n)
    ensures DecodeU64(items) == Err(Overflow)
  {
    U64Width();
    var b := BigEndian(n);
    if |b| <= 8 {
      BeValueBound(b);
      PowMonotone(|b|, 8);
      assert false;
    }
  }

  /** A string item where a list is expected is refused with `UnexpectedString`. */
  lemma ListRejectsString(b: Bytes, items: seq<Item>)
    requires |items| > 0 && items[0] == RlpString(b)
    ensures DecodeList(items) == Err(UnexpectedString)
  {
  }
}

=== FILE: smr_types.dfy ===
/** Steps, triggers and round-change sources of the state machine replication layer. */
module SmrTypes {
  import opened Wrappers
  import opened Primitives
  import opened Errors
  import opened Types

  /** The phase of a round; declaration order is the derived order. */
  datatype Step = Propose | Prevote | Precommit | Brake | Commit

  /** A step's position in the declaration, which the derived `Ord` compares. */
  function StepRank(s: Step): nat {
    match s
    case Propose => 0
    case Prevote => 1
    case Precommit => 2
    case Brake => 3
    case Commit => 4
  }

  /** The derived `Ord` of `Step`. */
  function CompareSteps(a: Step, b: Step): (o: Ordering)
    ensures o == Equal <==> a == b
    ensures o == Less <==> StepRank(a) < StepRank(b)
    ensures o == Greater <==> StepRank(a) > StepRank(b)
  {
    if StepRank(a) < StepRank(b) then Less
    else if StepRank(a) > StepRank(b) then Greater
    else Equal
  }

  /** The derived order is a strict total order: swapping the operands flips it, and it chains. */
  lemma StepOrderChain(a: Step, b: Step, c: Step)
    ensures CompareSteps(a, b) == Less <==> CompareSteps(b, a) == Greater
    ensures CompareSteps(a, b) == Less && CompareSteps(b, c) == Less ==> CompareSteps(a, c) == Less
  {
  }

  /** `Step::default()`: a node waits in Commit until a rich status starts a height. */
  function DefaultStep(): (s: Step)
    ensures forall t: Step :: CompareSteps(t, s) != Greater
  {
    Step.Commit
  }

  /** `u8::from(Step)`. */
  function StepToByte(s: Step): (b: byte)
    ensures b <= 4
    ensures b == StepRank(s)
  {
    match s
    case Propose => 0
    case Prevote => 1
    case Precommit => 2
    case Brake => 3
    case Commit => 4
  }

  /** `Step::from(u8)`: the inverse of `StepToByte` on 0..4, a panic above. */
  function StepFromByte(b: byte): (r: Result<Step, Panic>)
    ensures r.Ok? <==> b <= 4
    ensures r.Ok? ==> StepToByte(r.value) == b
    ensures r.Err? ==> r.error == Panic("Invalid step!")
  {
    match b
    case 0 => Ok(Propose)
    case 1 => Ok(Step.Prevote)
    case 2 => Ok(Step.Precommit)
    case 3 => Ok(Brake)
    case 4 => Ok(Step.Commit)
    case _ => Err(Panic("Invalid step!"))
  }

  /** Every step survives the trip through its byte. */
  lemma StepByteRoundTrip(s: Step)
    ensures StepFromByte(StepToByte(s)) == Ok(s)
  {
  }

  /** `Debug` of a step: the variant name. */
  function StepDebug(s: Step): (name: string)
    ensures |name| > 0
  {
    match s
    case Propose => "Propose"
    case Prevote => "Prevote"
    case Precommit => "Precommit"
    case Brake => "Brake"
    case Commit => "Commit"
  }

  /** `Step::from(VoteType)`. */
  function VoteTypeToStep(v: VoteType): (s: Step)
    ensures s == Step.Prevote || s == Step.Precommit
    ensures s == Step.Prevote <==> v == VoteType.Prevote
    ensures StepToByte(s) == VoteTypeToByte(v)
  {
    match v
    case Prevote => Step.Prevote
    case Precommit => Step.Precommit
  }

  /** Where a new round comes from, with the round of the certificate. */
  datatype FromWhere = PrevoteQCRound(prevoteRound: u64) | PrecommitQCRound(precommitRound: u64) | ChokeQCRound(chokeRound: u64)

  /** `FromWhere::get_round`. */
  function FromWhereRound(f: FromWhere): (r: u64)
    ensures f.PrevoteQCRound? ==> r == f.prevoteRound
    ensures f.PrecommitQCRound? ==> r == f.precommitRound
    ensures f.ChokeQCRound? ==> r == f.chokeRound
  {
    match f
    case PrevoteQCRound(round) => round
    case PrecommitQCRound(round) => round
    case ChokeQCRound(round) => round
  }

  /** `FromWhere::to_reason`: the view change from `oldRound` to the certificate's round. */
  function ToReason(f: FromWhere, oldRound: u64): (reason: ViewChangeReason)
    ensures f.PrevoteQCRound? <==> reason.UpdateFromHigherPrevoteQC?
    ensures f.PrecommitQCRound? <==> reason.UpdateFromHigherPrecommitQC?
    ensures f.ChokeQCRound? <==> reason.UpdateFromHigherChokeQC?
    ensures reason == UpdateFromHigherPrevoteQC(oldRound, FromWhereRound(f))
         || reason == UpdateFromHigherPrecommitQC(oldRound, FromWhereRound(f))
         || reason == UpdateFromHigherChokeQC(oldRound, FromWhereRound(f))
  {
    match f
    case PrevoteQCRound(round) => UpdateFromHigherPrevoteQC(oldRound, round)
    case PrecommitQCRound(round) => UpdateFromHigherPrecommitQC(oldRound, round)
    case ChokeQCRound(round) => UpdateFromHigherChokeQC(oldRound, round)
  }

  /** The status a new height starts from. */
  datatype SMRStatus = SMRStatus(height: u64, newInterval: Option<u64>, newConfig: Option<DurationConfig>)

  /** `SMRStatus::from(Status)`: the authority list is dropped. */
  function StatusToSmr(s: Status): (r: SMRStatus)
    ensures r.height == s.height && r.newInterval == s.interval && r.newConfig == s.timerConfig
  {
    SMRStatus(s.height, s.interval, s.timerConfig)
  }

  /** What kind of event a trigger carries into the state machine. */
  datatype TriggerType =
    | ProposalTrigger
    | PrevoteQCTrigger
    | PrecommitQCTrigger
    | NewHeight(status: SMRStatus)
    | WalInfoTrigger
    | BrakeTimeout
    | ContinueRound
    | StopTrigger

  /** `TriggerType::from(VoteType)`. */
  function VoteTypeToTrigger(v: VoteType): (t: TriggerType)
    ensures t == PrevoteQCTrigger || t == PrecommitQCTrigger
    ensures t == PrevoteQCTrigger <==> v == VoteType.Prevote
  {
    match v
    case Prevote => PrevoteQCTrigger
    case Precommit => PrecommitQCTrigger
  }

  /** `u8::from(TriggerType)`: only the first three variants have a byte. */
  function TriggerToByte(t: TriggerType): (r: Result<byte, Panic>)
    ensures r.Ok? <==> t.ProposalTrigger? || t.PrevoteQCTrigger? || t.PrecommitQCTrigger?
    ensures t.ProposalTrigger? ==> r == Ok(0)
    ensures t.PrevoteQCTrigger? ==> r == Ok(1)
    ensures t.PrecommitQCTrigger? ==> r == Ok(2)
    ensures r.Err? ==> r.error == Panic(UNREACHABLE)
  {
    match t
    case ProposalTrigger => Ok(0)
    case PrevoteQCTrigger => Ok(1)
    case PrecommitQCTrigger => Ok(2)
    case _ => Err(Panic(UNREACHABLE))
  }

  /** `TriggerType::from(u8)`: inverse of `TriggerToByte` on 0..2; 3 is unreachable, above panics. */
  function TriggerFromByte(b: byte): (r: Result<TriggerType, Panic>)
    ensures r.Ok? <==> b <= 2
    ensures b == 0 ==> r == Ok(ProposalTrigger)
    ensures b == 1 ==> r == Ok(PrevoteQCTrigger)
    ensures b == 2 ==> r == Ok(PrecommitQCTrigger)
    ensures r.Ok? ==> TriggerToByte(r.value) == Ok(b)
    ensures b == 3 ==> r == Err(Panic(UNREACHABLE))
    ensures b > 3 ==> r == Err(Panic("Invalid trigger type!"))
  {
    match b
    case 0 => Ok(ProposalTrigger)
    case 1 => Ok(PrevoteQCTrigger)
    case 2 => Ok(PrecommitQCTrigger)
    case 3 => Err(Panic(UNREACHABLE))
    case _ => Err(Panic("Invalid trigger type!"))
  }

  /** Each of the three byte-carrying trigger types survives the trip through its byte. */
  lemma TriggerByteRoundTrip(t: TriggerType)
    requires t.ProposalTrigger? || t.PrevoteQCTrigger? || t.PrecommitQCTrigger?
    ensures TriggerToByte(t).Ok? && TriggerFromByte(TriggerToByte(t).value) == Ok(t)
  {
  }

  datatype TriggerSource = State | Timer

  /** A lock: the round and the block hash locked on. */
  datatype Lock = Lock(round: u64, hash: Hash)

  /** The state recovered from the write-ahead log (declared in src/wal/wal_type.rs). */
  datatype SMRBase = SMRBase(height: u64, round: u64, step: Step, polc: Option<Lock>)

  /**
   * A trigger sent to the state machine. `round` is unbounded because the source computes
   * `round + 1` for ContinueRound without checking for overflow.
   */
  datatype SMRTrigger = SMRTrigger(
    triggerType: TriggerType,
    source: TriggerSource,
    hash: Hash,
    lockRound: Option<u64>,
    round: nat,
    height: u64,
    walInfo: Option<SMRBase>)
}

=== FILE: types.dfy ===
/** Messages, votes, quorum certificates and authority records exchanged by the State layer. */
module Types {
  import opened Wrappers
  import opened Primitives
  import opened Errors

  type Address = Bytes
  type Hash = Bytes
  type Signature = Bytes

  /** Kind of a vote or of a quorum certificate. */
  datatype VoteType = Prevote | Precommit

  /** `u8::from(VoteType)`. */
  function VoteTypeToByte(v: VoteType): (b: byte)
    ensures b == 1 || b == 2
    ensures v == Prevote <==> b == 1
  {
    match v
    case Prevote => 1
    case Precommit => 2
  }

  /** `VoteType::try_from(u8)`: the inverse of `VoteTypeToByte`, an error for any other byte. */
  function VoteTypeFromByte(b: byte): (r: Result<VoteType, ConsensusError>)
    ensures r.Ok? <==> b == 1 || b == 2
    ensures r.Ok? ==> VoteTypeToByte(r.value) == b
    ensures r.Err? ==> r.error == Other("")
  {
    match b
    case 1 => Ok(Prevote)
    case 2 => Ok(Precommit)
    case _ => Err(Other(""))
  }

  /** Every vote type survives the trip through its byte. */
  lemma VoteTypeByteRoundTrip(v: VoteType)
    ensures VoteTypeFromByte(VoteTypeToByte(v)) == Ok(v)
  {
  }

  datatype AggregatedSignature = AggregatedSignature(signature: Signature, addressBitmap: Bytes)

  /** A quorum certificate. */
  datatype AggregatedVote = AggregatedVote(
    signature: AggregatedSignature,
    voteType: VoteType,
    height: u64,
    round: u64,
    blockHash: Hash,
    leader: Address)

  datatype Vote = Vote(height: u64, round: u64, voteType: VoteType, blockHash: Hash)

  datatype SignedVote = SignedVote(signature: Signature, vote: Vote, voter: Address)

  /** `AggregatedVote::to_vote`: the vote a QC certifies. */
  function ToVote(qc: AggregatedVote): (v: Vote)
    ensures v.height == qc.height && v.round == qc.round
    ensures v.voteType == qc.voteType && v.blockHash == qc.blockHash
  {
    Vote(qc.height, qc.round, qc.voteType, qc.blockHash)
  }

  /** `AggregatedVote::is_prevote_qc`. */
  function IsPrevoteQc(qc: AggregatedVote): (b: bool)
    ensures b <==> qc.voteType == Prevote
    ensures !b <==> qc.voteType == Precommit
  {
    qc.voteType == Prevote
  }

  /** `Ord for SignedVote`: only the voter address takes part in the comparison. */
  function CompareSignedVotes(a: SignedVote, b: SignedVote): (o: Ordering)
    ensures o == Equal <==> a.voter == b.voter
    ensures o == Flip(CompareBytes(b.voter, a.voter))
  {
    CompareBytesFlip(b.voter, a.voter);
    CompareBytes(a.voter, b.voter)
  }

  datatype PoLC = PoLC(lockRound: u64, lockVotes: AggregatedVote)

  /** A block proposal; `T` is the application's block content. */
  datatype Proposal<T> = Proposal(
    height: u64,
    round: u64,
    content: T,
    blockHash: Hash,
    lock: Option<PoLC>,
    proposer: Address)

  datatype SignedProposal<T> = SignedProposal(signature: Signature, proposal: Proposal<T>)

  datatype Proof = Proof(height: u64, round: u64, blockHash: Hash, signature: AggregatedSignature)

  datatype Commit<T> = Commit(height: u64, content: T, proof: Proof)

  /** Timer ratios of the configuration (declared in the crate root). */
  datatype DurationConfig = DurationConfig(
    proposeRatio: u64,
    prevoteRatio: u64,
    precommitRatio: u64,
    brakeRatio: u64)

  /** A validator with its two weights. */
  datatype Node = Node(address: Address, proposeWeight: u32, voteWeight: u32)

  /** `Node::new`: both weights default to one. */
  function NewNode(address: Address): (n: Node)
    ensures n.address == address
    ensures n.proposeWeight == 1 && n.voteWeight == 1
  {
    Node(address, 1, 1)
  }

  /** `Node::set_propose_weight`: the address and the vote weight are kept. */
  function SetProposeWeight(n: Node, w: u32): (n': Node)
    ensures n'.proposeWeight == w
    ensures n'.address == n.address && n'.voteWeight == n.voteWeight
  {
    n.(proposeWeight := w)
  }

  /** `Node::set_vote_weight`: the address and the propose weight are kept. */
  function SetVoteWeight(n: Node, w: u32): (n': Node)
    ensures n'.voteWeight == w
    ensures n'.address == n.address && n'.proposeWeight == n.proposeWeight
  {
    n.(voteWeight := w)
  }

  /** `Ord for Node`: only the address takes part in the comparison. */
  function CompareNodes(a: Node, b: Node): (o: Ordering)
    ensures o == Equal <==> a.address == b.address
    ensures o == Flip(CompareBytes(b.address, a.address))
  {
    CompareBytesFlip(b.address, a.address);
    CompareBytes(a.address, b.address)
  }

  /** A rich status: the start of a new height with its authority list. */
  datatype Status = Status(
    height: u64,
    interval: Option<u64>,
    timerConfig: Option<DurationConfig>,
    authorityList: seq<Node>)

  /** Whether some node of `list` carries `address`. */
  function ListHasAddress(list: seq<Node>, address: Address): (b: bool)
    ensures b <==> exists i :: 0 <= i < |list| && list[i].address == address
  {
    if |list| == 0 then false
    else if list[0].address == address then true
    else
      var b := ListHasAddress(list[1..], address);
      assert forall i :: 1 <= i < |list| ==> list[i] == list[1..][i - 1];
      b
  }

  /** `Status::is_consensus_node`. */
  function IsConsensusNode(status: Status, address: Address): (b: bool)
    ensures b <==> exists n :: n in status.authorityList && n.address == address
  {
    ListHasAddress(status.authorityList, address)
  }

  datatype AggregatedChoke = AggregatedChoke(
    height: u64,
    round: u64,
    signature: Signature,
    voters: seq<Address>)

  /** The signed part of a choke. */
  datatype HashChoke = HashChoke(height: u64, round: u64)

  /** How a node reached its current round. */
  datatype UpdateFrom =
    | PrevoteQC(prevoteQc: AggregatedVote)
    | PrecommitQC(precommitQc: AggregatedVote)
    | ChokeQC(chokeQc: AggregatedChoke)

  datatype Choke = Choke(height: u64, round: u64, from: UpdateFrom)

  datatype SignedChoke = SignedChoke(signature: Signature, choke: Choke, address: Address)

  /** `AggregatedChoke::len`. */
  function ChokeLen(qc: AggregatedChoke): (n: nat)
    ensures n == |qc.voters|
  {
    |qc.voters|
  }

  /** `AggregatedChoke::to_hash`: the signed part keeps height and round. */
  function AggregatedChokeToHash(qc: AggregatedChoke): (h: HashChoke)
    ensures h.height == qc.height && h.round == qc.round
  {
    HashChoke(qc.height, qc.round)
  }

  /** `Choke::to_hash`: the signed part keeps height and round. */
  function ChokeToHash(c: Choke): (h: HashChoke)
    ensures h.height == c.height && h.round == c.round
  {
    HashChoke(c.height, c.round)
  }

  datatype ViewChangeReason =
    | NoProposalFromNetwork
    | NoPrevoteQCFromNetwork
    | NoPrecommitQCFromNetwork
    | CheckBlockNotPass
    | UpdateFromHigherPrevoteQC(prevoteFrom: u64, prevoteTo: u64)
    | UpdateFromHigherPrecommitQC(precommitFrom: u64, precommitTo: u64)
    | UpdateFromHigherChokeQC(chokeFrom: u64, chokeTo: u64)
    | LeaderReceivedVoteBelowThreshold(belowType: VoteType)
    | Others

  /** A message of the consensus protocol. */
  datatype OverlordMsg<T> =
    | SignedProposalMsg(signedProposal: SignedProposal<T>)
    | SignedVoteMsg(signedVote: SignedVote)
    | AggregatedVoteMsg(aggregatedVote: AggregatedVote)
    | RichStatus(status: Status)
    | SignedChokeMsg(signedChoke: SignedChoke)
    | Stop

  /** `OverlordMsg::is_rich_status`. */
  function IsRichStatus<T>(m: OverlordMsg<T>): (b: bool)
    ensures b <==> m.RichStatus?
  {
    match m
    case RichStatus(_) => true
    case _ => false
  }

  /** `OverlordMsg::get_height`: the height each message carries; `Stop` is unreachable. */
  function GetHeight<T>(m: OverlordMsg<T>): (r: Result<u64, Panic>)
    ensures r.Err? <==> m.Stop?
    ensures m.SignedProposalMsg? ==> r == Ok(m.signedProposal.proposal.height)
    ensures m.SignedVoteMsg? ==> r == Ok(m.signedVote.vote.height)
    ensures m.AggregatedVoteMsg? ==> r == Ok(m.aggregatedVote.height)
    ensures m.RichStatus? ==> r == Ok(m.status.height)
    ensures m.SignedChokeMsg? ==> r == Ok(m.signedChoke.choke.height)
  {
    match m
    case SignedProposalMsg(sp) => Ok(sp.proposal.height)
    case SignedVoteMsg(sv) => Ok(sv.vote.height)
    case AggregatedVoteMsg(av) => Ok(av.height)
    case RichStatus(s) => Ok(s.height)
    case SignedChokeMsg(sc) => Ok(sc.choke.height)
    case Stop => Err(Panic(UNREACHABLE))
  }
}

=== FILE: wal_type.dfy ===
/** The write-ahead-log record and its projection onto the state machine's recovery state. */
module WalTypes {
  import opened Wrappers
  import opened Primitives
  import opened Types
  import opened SmrTypes

  /** The lock part of a log record: the lock round, its certificate and the locked block. */
  datatype WalLock<T> = WalLock(lockRound: u64, lockVotes: AggregatedVote, content: T)

  /** One log record: where the node is, what it is locked on, and how it reached this round. */
  datatype WalInfo<T> = WalInfo(
    height: u64,
    round: u64,
    step: Step,
    lock: Option<WalLock<T>>,
    from: UpdateFrom)

  /** `WalLock::to_lock`: the lock round with the hash its certificate is for. */
  function ToLock<T>(l: WalLock<T>): (k: Lock)
    ensures k.round == l.lockRound
    ensures k.hash == l.lockVotes.blockHash
  {
    Lock(l.lockRound, l.lockVotes.blockHash)
  }

  /** `WalInfo::into_smr_base`: keeps position and step, reduces the lock to round and hash. */
  function IntoSmrBase<T>(w: WalInfo<T>): (b: SMRBase)
    ensures b.height == w.height && b.round == w.round && b.step == w.step
    ensures b.polc.None? <==> w.lock.None?
    ensures w.lock.Some? ==> b.polc == Some(ToLock(w.lock.value))
  {
    SMRBase(
      w.height,
      w.round,
      w.step,
      match w.lock
      case None => None
      case Some(l) => Some(ToLock(l)))
  }

  const DISPLAY_HEIGHT: string := "wal info height "
  const DISPLAY_ROUND: string := ", round "
  const DISPLAY_STEP: string := ", step "

  /** `Display for WalInfo`: height and round in decimal, the step by its variant name. */
  function DisplayWalInfo<T>(w: WalInfo<T>): (s: string)
    ensures |s| == |DISPLAY_HEIGHT| + |Decimal(w.height)| + |DISPLAY_ROUND| + |Decimal(w.round)|
                   + |DISPLAY_STEP| + |StepDebug(w.step)|
    ensures s[..|DISPLAY_HEIGHT|] == DISPLAY_HEIGHT
    ensures
      var rest := s[|DISPLAY_HEIGHT|..];
      var h := |Decimal(w.height)|;
      && IsDecimalOf(rest[..h], w.height)
      && rest[h..][..|DISPLAY_ROUND|] == DISPLAY_ROUND
      && IsDecimalOf(rest[h..][|DISPLAY_ROUND|..][..|Decimal(w.round)|], w.round)
      && rest[h..][|DISPLAY_ROUND|..][|Decimal(w.round)|..] == DISPLAY_STEP + StepDebug(w.step)
  {
    var h := Decimal(w.height);
    var r := Decimal(w.round);
    var tail := DISPLAY_STEP + StepDebug(w.step);
    var afterRound := r + tail;
    var afterHeight := DISPLAY_ROUND + afterRound;
    var rest := h + afterHeight;
    Split(DISPLAY_HEIGHT, rest);
    Split(h, afterHeight);
    Split(DISPLAY_ROUND, afterRound);
    Split(r, tail);
    DISPLAY_HEIGHT + rest
  }

  /** Splitting a concatenation at the length of its first part gives the parts back. */
  lemma Split(a: string, b: string)
    ensures (a + b)[..|a|] == a && (a + b)[|a|..] == b
  {
  }

  /** The record of the display test: height 0, round 0, step Propose. */
  lemma DisplayWalInfoExample<T>(w: WalInfo<T>)
    requires w.height == 0 && w.round == 0 && w.step == Propose
    ensures DisplayWalInfo(w) == "wal info height 0, round 0, step Propose"
  {
    assert Decimal(0) == "0";
    assert StepDebug(w.step) == "Propose";
    calc {
      DisplayWalInfo(w);
      DISPLAY_HEIGHT + ("0" + (DISPLAY_ROUND + ("0" + (DISPLAY_STEP + "Propose"))));
      "wal info height 0, round 0, step Propose";
    }
  }
}

=== FILE: window.dfy ===
/**
 * The message window of the State layer (`filter_message`): a message is handled only when it
 * is for the current height at the current round or up to ten rounds later, or for one of the
 * next five heights at a round of at most ten.
 */
module Window {
  import opened Primitives

  const FUTURE_HEIGHT_GAP: nat := 5
  const FUTURE_ROUND_GAP: nat := 10

  /** The messages a node at (selfHeight, selfRound) keeps, stated independently of the filter. */
  predicate InWindow(selfHeight: nat, selfRound: nat, height: nat, round: nat) {
    || (height == selfHeight && selfRound <= round <= selfRound + FUTURE_ROUND_GAP)
    || (selfHeight < height <= selfHeight + FUTURE_HEIGHT_GAP && round <= FUTURE_ROUND_GAP)
  }

  /**
   * `filter_message`: true when the message is to be dropped. Heights and rounds are compared
   * as mathematical integers.
   */
  function FilterMessage(selfHeight: u64, selfRound: u64, height: u64, round: u64): (drop: bool)
    ensures height < selfHeight ==> drop
    ensures height == selfHeight && round < selfRound ==> drop
    ensures height > selfHeight + FUTURE_HEIGHT_GAP ==> drop
    ensures height == selfHeight && round > selfRound + FUTURE_ROUND_GAP ==> drop
    ensures height > selfHeight && round > FUTURE_ROUND_GAP ==> drop
    ensures height == selfHeight && round == selfRound ==> !drop
    ensures drop <==> !InWindow(selfHeight, selfRound, height, round)
  {
    if height < selfHeight || (height == selfHeight && round < selfRound) then true
    else if selfHeight + FUTURE_HEIGHT_GAP < height then true
    else if (height == selfHeight && selfRound + FUTURE_ROUND_GAP < round)
         || (height > selfHeight && round > FUTURE_ROUND_GAP) then true
    else false
  }

  /** `u64` addition as a release build computes it: modulo 2^64. */
  function WrappingAdd(a: u64, b: u64): (s: u64)
    ensures a + b < U64_LIMIT ==> s == a + b
    ensures a + b >= U64_LIMIT ==> s == a + b - U64_LIMIT
  {
    (a + b) % U64_LIMIT
  }

  /** `filter_message` as written, with both additions wrapping at 2^64. */
  function FilterMessageWrapping(selfHeight: u64, selfRound: u64, height: u64, round: u64): (drop: bool)
    ensures selfHeight + FUTURE_HEIGHT_GAP < U64_LIMIT && selfRound + FUTURE_ROUND_GAP < U64_LIMIT
            ==> drop == FilterMessage(selfHeight, selfRound, height, round)
  {
    if height < selfHeight || (height == selfHeight && round < selfRound) then true
    else if WrappingAdd(selfHeight, FUTURE_HEIGHT_GAP) < height then true
    else if (height == selfHeight && WrappingAdd(selfRound, FUTURE_ROUND_GAP) < round)
         || (height > selfHeight && round > FUTURE_ROUND_GAP) then true
    else false
  }

  /**
   * With wrapping arithmetic a node at the last height drops a message for its own height and
   * round: `u64::MAX + 5` wraps to 4, which is below the message height.
   */
  lemma WrappingDropsCurrentMessage()
    ensures FilterMessageWrapping(U64_MAX, 0, U64_MAX, 0)
    ensures !FilterMessage(U64_MAX, 0, U64_MAX, 0)
  {
    assert WrappingAdd(U64_MAX, FUTURE_HEIGHT_GAP) == 4;
  }

  /** Likewise at the last rounds: a message one round ahead is dropped. */
  lemma WrappingDropsNextRound()
    ensures FilterMessageWrapping(0, U64_MAX - 1, 0, U64_MAX)
    ensures !FilterMessage(0, U64_MAX - 1, 0, U64_MAX)
  {
    assert WrappingAdd(U64_MAX - 1, FUTURE_ROUND_GAP) == 8;
  }
}

=== FILE: wrappers.dfy ===
/** Failure-compatible Option and Result datatypes, usable with `:-`. */
module Wrappers {

  datatype Option<+T> = None | Some(value: T) {
    predicate IsFailure() { None? }

    function PropagateFailure<U>(): Option<U>
      requires None?
    {
      None
    }

    function Extract(): T
      requires Some?
    {
      value
    }
  }

  datatype Result<+T, +E> = Ok(value: T) | Err(error: E) {
    predicate IsFailure() { Err? }

    function PropagateFailure<U>(): Result<U, E>
      requires Err?
    {
      Err(error)
    }

    function Extract(): T
      requires Ok?
    {
      value
    }
  }
}
